=== FILE: README.md ===
# Coral and clownfish: the solver and hint engine

The puzzle is played on a rectangular grid. Row 0 and column 0 hold clue
cells, and each clue says how many clownfish its row or column must contain.
Some puzzle cells are coral. The player marks every other cell as water or
clownfish. Every clownfish must sit orthogonally beside coral, and no two
clownfish may touch, not even diagonally.

The suggester in `src/suggesters/EvanOldsSuggest.js` answers "what should I
change next?". It solves the puzzle from scratch and compares the answer with
the player's board. This project models that engine and proves properties of
it:

- `grid.dfy` (`Grid`): cells, boards, positions, writing one cell. It also
  defines the relations between boards that the proofs use:
  - `Refines`: only empty cells get decided;
  - `KeepsFixed`: coral and clue cells are frozen;
  - `EmptySet`: the undecided cells, which bound every loop and every search.
- `groups.dfy` (`Groups`): the source's cell collections, which are a row, a
  column or a neighbourhood. It also has their two queries: counting the cells
  of one kind, and finding the first cell of one kind. It has the first-empty
  scan, the out-of-bounds-tolerant type lookup and the coral-border test.
- `propagation.dfy` (`Propagation`): the logic solver. First come the one-off
  passes: zero-clue rows, zero-clue columns and isolation. Then comes the
  four-case solver for one row or column. Then come the column-then-row sweep
  and the loop that repeats it until nothing changes. Last is the solved check,
  written both as a declarative predicate and as the source's loops.
- `soundness.dfy` (`Soundness`): every deduction agrees with every solution
  the board can still reach.
- `search.dfy` (`Search`): the optional reset and the backtracking solver. It
  guesses the first empty cell, water before clownfish. The results proved
  about it:
  - soundness: any answer passes the solved check, keeps the frozen cells and
    puts every clownfish beside coral;
  - completeness: an answer is found whenever a solution is reachable;
  - idempotence on solved boards.
- `suggest.dfy` (`Suggest`): the hint. In fish-first mode it is the first
  missing clownfish. Otherwise it is the first wrong cell in reading order,
  and the top-left puzzle cell when nothing is wrong.

**Boards and well-formedness.** A board is an immutable `seq<seq<Cell>>`.
Each copy-and-mutate step of the source becomes a function from board to
board. Cells are addressed by coordinates. The source finds a cell's position
by object identity, and coordinates make that lookup unnecessary. The solver
requires `WellFormed`:

- the board is rectangular;
- clue cells sit exactly on row 0 and column 0;
- the corner is not a zero clue.

If the corner were a zero clue, the zero-row and zero-column passes would
write to frozen clue cells, which throws in the source's strict-mode class
code.

**Solutions.** "A solution of the puzzle" (`PuzzleSolution`) is a well-formed
board with four properties:

- it passes the solved check;
- every clownfish borders coral;
- every coral cell has an orthogonal clownfish;
- as a consequence of the solved check, it has no empty cells.

These are the rules the engine reasons with. The isolation pass assumes the
second rule, and case 3 of the row/column solver assumes the third.

**Where the code and its description differ, the model follows the code.**

- A zero clue turns every non-coral cell of its row or column into water. The
  isolation pass does the same to cells away from coral. Both write water over
  whatever the cell holds, not just over empty cells. A board solved without
  the reset may already hold the player's clownfish in such a cell, and these
  passes overwrite it. So they only keep the frozen cells (`WaterStep`). They
  do not refine the board. The solver's own guesses are never overwritten:
  a cell left empty after propagation has non-zero clues and borders coral
  (`Search.GuessSafe`), so the passes rerun after a guess keep the guess
  (`Search.GuessKept`).
- The solved check counts clues and checks that clownfish do not touch. It
  does not check that a clownfish borders coral, or that it borders exactly
  one coral. Answers border coral anyway because of the isolation pass
  (`Search.SolveFrom`).
- With no solution, the hint does not return a "no suggestion" value: it
  reads the length of a null answer and fails. `Suggest.NextSuggestion`
  returns `None` exactly then. With nothing wrong, the hint is cell (1, 1).
- The first-empty scan covers the clue row and column too. Those cells are
  never empty in a well-formed board.
- The sweep's row loop starts at row 0 (the clue row). Its column loop starts
  at column 1.
- A JavaScript comparison of a count with a missing `value` is false. It is
  modelled as "the first cell is a clue cell, and the count equals its number".

## Model

| member | source | states |
|---|---|---|
| Groups.RowGroup | src/suggesters/EvanOldsSuggest.js:402-404 | a row as a group: its cells in order, starting with its clue cell, and exactly the in-bounds cells of that row |
| Groups.ColumnGroup | src/suggesters/EvanOldsSuggest.js:166-177 | a column as a group: one cell per row, starting with the clue cell, and exactly the in-bounds cells of that column |
| Groups.CountOfKind | src/suggesters/EvanOldsSuggest.js:235-243 | weaker: the count is at most the group's length; what it counts is stated by the lemmas below (see "## Left out") |
| Groups.CountZero | src/suggesters/EvanOldsSuggest.js:235-243 | counting cells of a kind gives 0 exactly when no cell of the group has that kind |
| Groups.CountTwo | src/suggesters/EvanOldsSuggest.js:235-243 | two distinct cells of a kind make the count at least 2 |
| Groups.CountGrows | src/suggesters/EvanOldsSuggest.js:235-243 | a count never drops when cells of that kind keep their kind |
| Groups.CountGrowsStrictly | src/suggesters/EvanOldsSuggest.js:235-243 | a count strictly grows when one more cell takes on that kind |
| Groups.CountCovered | src/suggesters/EvanOldsSuggest.js:235-243 | the cells of kind k in one board are covered by the cells of kinds k1 and k2 in another, so the counts are bounded that way |
| Groups.CountCoveredStrictly | src/suggesters/EvanOldsSuggest.js:235-243 | the same bound is strict when a covered cell loses kind k |
| Groups.CountZeroMember | src/suggesters/EvanOldsSuggest.js:235-243 | with count 0, no member of the group has that kind |
| Groups.FirstOfKind | src/suggesters/EvanOldsSuggest.js:244-251 | the first cell of the group with the kind, or none exactly when no cell has it |
| Groups.FirstOfKindCount | src/suggesters/EvanOldsSuggest.js:244-251 | the first-of-kind query finds a cell exactly when the count is positive |
| Groups.FirstEmptyFrom | src/suggesters/EvanOldsSuggest.js:100-108 | the row-by-row scan from a row onwards: an empty cell with no empty cell before it in reading order, or none when those rows have no empty cell |
| Groups.FirstEmpty | src/suggesters/EvanOldsSuggest.js:100-108 | the first empty cell of the board in reading order; none exactly when no cell is empty |
| Groups.GetCellType | src/suggesters/EvanOldsSuggest.js:148-160 | the cell at (r, c) when in bounds, the default otherwise |
| Groups.BordersCoral | src/suggesters/EvanOldsSuggest.js:78-90 | true exactly when an orthogonal in-bounds neighbour is coral; out-of-bounds neighbours read as water |
| Groups.OrthogonalCells | src/suggesters/EvanOldsSuggest.js:197-204 | the orthogonal neighbours the lookup adds, which are exactly the orthogonal puzzle cells when the cell is a puzzle cell |
| Groups.DiagonalCells | src/suggesters/EvanOldsSuggest.js:205-214 | the diagonal neighbours that lie in the puzzle area |
| Groups.Surrounding | src/suggesters/EvanOldsSuggest.js:184-225 | weaker: at most 4 cells, or 8 with diagonals, all on the board; which cells it holds is stated by `Groups.SurroundingMembers` (see "## Left out") |
| Groups.SurroundingMembers | src/suggesters/EvanOldsSuggest.js:184-222 | the neighbourhood of a puzzle cell holds exactly its puzzle-cell neighbours (orthogonal, plus diagonal on request), never a clue cell |
| Groups.SurroundingShape | src/suggesters/EvanOldsSuggest.js:184-222 | the neighbourhood depends only on the board's shape |
| Groups.SurroundingSymmetric | src/suggesters/EvanOldsSuggest.js:184-222 | neighbourhood is symmetric between puzzle cells |
| Groups.BordersCoralSurrounding | src/suggesters/EvanOldsSuggest.js:78-90 | the coral-border test agrees with counting coral in the orthogonal neighbourhood |
| Groups.GroupsShape | src/suggesters/EvanOldsSuggest.js:166-177 | rows and columns depend only on the board's shape |
| Propagation.FloodWater | src/suggesters/EvanOldsSuggest.js:340-344 | every non-coral cell of the group becomes water and nothing else changes |
| Propagation.ZeroRowsFrom | src/suggesters/EvanOldsSuggest.js:336-346 | in each row whose clue is 0, every non-coral cell from column 1 becomes water; nothing else changes |
| Propagation.ZeroColumnsFrom | src/suggesters/EvanOldsSuggest.js:349-360 | in each column whose clue is 0, every non-coral cell from row 1 becomes water; nothing else changes |
| Propagation.IsolateCells | src/suggesters/EvanOldsSuggest.js:368-379 | down one column, each non-coral cell with no orthogonal coral becomes water |
| Propagation.IsolateColumnsFrom | src/suggesters/EvanOldsSuggest.js:366-380 | the isolation pass: each non-coral puzzle cell with no orthogonal coral becomes water; nothing else changes |
| Propagation.SameCoralBorders | src/suggesters/EvanOldsSuggest.js:371-372 | writing water never changes which cells border coral, so the column-by-column pass equals a simultaneous one |
| Propagation.WaterStepKeepsFixed | src/suggesters/EvanOldsSuggest.js:336-380 | a pass that only turns non-coral puzzle cells into water keeps coral and clues, keeps the board well-formed and adds no empty cell |
| Propagation.ZeroRowsStep | src/suggesters/EvanOldsSuggest.js:336-346 | the zero-row pass only turns non-coral puzzle cells into water (the clue row is untouched because the corner is not a zero clue) |
| Propagation.ZeroColumnsStep | src/suggesters/EvanOldsSuggest.js:349-360 | the zero-column pass only turns non-coral puzzle cells into water |
| Propagation.IsolationStep | src/suggesters/EvanOldsSuggest.js:366-380 | the isolation pass only turns puzzle cells into water and leaves every cell away from coral as water |
| Propagation.Preprocess | src/suggesters/EvanOldsSuggest.js:333-380 | the three one-off passes keep coral and clues, keep the board well-formed, add no empty cell, satisfy the isolation rule, and leave every non-coral puzzle cell of a zero-clue row or column as water |
| Propagation.ZeroLinesPasses | src/suggesters/EvanOldsSuggest.js:333-380 | after the three one-off passes every non-coral puzzle cell of a zero-clue row or column is water |
| Propagation.ZeroLinesRefines | src/suggesters/EvanOldsSuggest.js:386-408 | deciding empty cells keeps every such water cell, so the loop keeps the zero-clue outcome |
| Propagation.PassesKeep | src/suggesters/EvanOldsSuggest.js:333-380 | the one-off passes keep whatever a puzzle cell beside coral in no zero-clue row or column holds |
| Propagation.IsolatedRefines | src/suggesters/EvanOldsSuggest.js:382-383 | deciding empty cells keeps the isolation rule |
| Propagation.Starved | src/suggesters/EvanOldsSuggest.js:513-533 | case 3's trigger, as a definition: a coral cell with no clownfish and exactly one empty cell among its orthogonal neighbours; `Propagation.ForcedFish` and `Soundness.StarvedNeighbourSound` state what follows from it |
| Propagation.Fill | src/suggesters/EvanOldsSuggest.js:477-487 | every empty cell of the group gets the given kind and nothing else changes; a change is reported exactly when the group had an empty cell |
| Propagation.FillDecides | src/suggesters/EvanOldsSuggest.js:477-487 | filling only decides empty cells, and it reports a change exactly when the board changed |
| Propagation.FirstSet | src/suggesters/EvanOldsSuggest.js:513-543 | the first index whose flag holds, or none when no flag holds |
| Propagation.ForcedFish | src/suggesters/EvanOldsSuggest.js:513-543 | case 3: none exactly when no coral cell of the group is starved; otherwise the one empty orthogonal neighbour of the first starved coral |
| Propagation.TouchesFish | src/suggesters/EvanOldsSuggest.js:555-562 | case 4's trigger, as a definition: the cell's eight-way neighbourhood holds a clownfish; `Propagation.TouchesFishMeaning` states what that means and `Soundness.TouchingSound` what follows from it |
| Propagation.TouchesFishMeaning | src/suggesters/EvanOldsSuggest.js:555-562 | the neighbourhood query finds a clownfish exactly when one sits on an adjacent puzzle cell, diagonals included |
| Propagation.TouchesFishWater | src/suggesters/EvanOldsSuggest.js:549-568 | turning an empty cell into water changes no cell's contact with clownfish |
| Propagation.ClearTouching | src/suggesters/EvanOldsSuggest.js:545-568 | weaker: keeps the board's shape; what case 4 writes and reports is stated by the next three rows (see "## Left out") |
| Propagation.ClearTouchingBoard | src/suggesters/EvanOldsSuggest.js:549-568 | case 4: each empty cell of the group touching a clownfish becomes water; every other cell is unchanged, so the sequential loop equals a simultaneous step |
| Propagation.ClearTouchingChanged | src/suggesters/EvanOldsSuggest.js:549-568 | case 4 reports a change exactly when some empty cell of the group touched a clownfish |
| Propagation.ClearDecides | src/suggesters/EvanOldsSuggest.js:549-568 | case 4 only decides empty cells, and it reports a change exactly when the board changed |
| Propagation.ClueMet | src/suggesters/EvanOldsSuggest.js:472-473 | case 1's trigger, as a definition: the first cell is a clue cell and the group holds exactly that many clownfish; `Propagation.TrySolveGroupCases` and `Soundness.ClueMetSound` state what follows from it |
| Propagation.ClueForces | src/suggesters/EvanOldsSuggest.js:493-494 | case 2's trigger, as a definition: the first cell is a clue cell and the group's empty cells plus its clownfish equal its number; `Propagation.TrySolveGroupCases` and `Soundness.ClueForcesSound` state what follows from it |
| Propagation.TrySolveGroup | src/suggesters/EvanOldsSuggest.js:468-576 | the row/column solver only decides empty cells and reports a change exactly when the board changed |
| Propagation.TrySolveGroupCases | src/suggesters/EvanOldsSuggest.js:471-575 | which case fires and what it does: clue met fills with water and is solved; clue forced fills with clownfish and is solved; a forced fish is written, unsolved, changed; otherwise case 4, solved exactly when no empty cell is left |
| Propagation.Columns | src/suggesters/EvanOldsSuggest.js:393-399 | the sweep visits columns 1 onwards, in order |
| Propagation.Rows | src/suggesters/EvanOldsSuggest.js:402-407 | the sweep visits every row from 0, in order |
| Propagation.GroupListsShape | src/suggesters/EvanOldsSuggest.js:393-407 | the groups of a sweep depend only on the board's shape, so each step sees the same groups |
| Propagation.SweepGroups | src/suggesters/EvanOldsSuggest.js:393-407 | solving a list of groups in turn only decides empty cells and reports a change exactly when the board changed |
| Propagation.Sweep | src/suggesters/EvanOldsSuggest.js:389-407 | one round (columns, then rows) only decides empty cells and reports a change exactly when the board changed |
| Propagation.Propagate | src/suggesters/EvanOldsSuggest.js:386-408 | the loop ends, and it ends on a board that refines its input where one more round changes nothing |
| Propagation.TryLogicSolve | src/suggesters/EvanOldsSuggest.js:321-456 | the logic solver keeps coral and clues, keeps the board well-formed, adds no empty cell, satisfies the isolation rule, ends at a fixed point, leaves every non-coral puzzle cell of a zero-clue row or column as water, and its flag is the solved check |
| Propagation.FishApartQuery | src/suggesters/EvanOldsSuggest.js:441-451 | the source's neighbourhood query decides "this clownfish touches no other" |
| Propagation.FishApartTouches | src/suggesters/EvanOldsSuggest.js:441-451 | the no-touch condition agrees with the case-4 contact test |
| Propagation.IsSolved | src/suggesters/EvanOldsSuggest.js:410-453 | the solved check, as a definition: every row and column from 1 has no empty cell and as many clownfish as its clue, and no clownfish touches another; `Propagation.CheckSolved` is proved to return true exactly when it holds |
| Propagation.CheckSolved | src/suggesters/EvanOldsSuggest.js:410-453 | the three loops of the solved check return true exactly when the board satisfies the declarative solved condition |
| Propagation.CheckRows | src/suggesters/EvanOldsSuggest.js:412-423 | true exactly when every row from 1 has no empty cell and as many clownfish as its clue |
| Propagation.CheckColumns | src/suggesters/EvanOldsSuggest.js:424-435 | true exactly when every column from 1 has no empty cell and as many clownfish as its clue |
| Propagation.CheckFishApart | src/suggesters/EvanOldsSuggest.js:436-453 | true exactly when no clownfish of the puzzle area touches another |
| Propagation.CheckRowFishApart | src/suggesters/EvanOldsSuggest.js:440-452 | true exactly when no clownfish of the row touches another |
| Soundness.SolutionCell | src/suggesters/EvanOldsSuggest.js:412-423 | every puzzle cell of a board that passes the solved check is water, clownfish or coral |
| Soundness.ZeroClueWater | src/suggesters/EvanOldsSuggest.js:333-360 | in a board that passes the solved check, every non-coral puzzle cell of a zero-clue row or column is water |
| Soundness.ZeroRowsSound | src/suggesters/EvanOldsSuggest.js:336-346 | the zero-row pass agrees with every board that passes the solved check and refines the board |
| Soundness.ZeroColumnsSound | src/suggesters/EvanOldsSuggest.js:349-360 | the zero-column pass agrees with every board that passes the solved check and refines the board |
| Soundness.SolutionIsolated | src/suggesters/EvanOldsSuggest.js:362-364 | a board that passes the solved check with every clownfish beside coral satisfies the isolation rule |
| Soundness.IsolationSound | src/suggesters/EvanOldsSuggest.js:366-380 | the isolation pass agrees with every board that refines the board, passes the solved check and has every clownfish beside coral |
| Soundness.PreprocessSound | src/suggesters/EvanOldsSuggest.js:333-380 | the one-off passes agree with every board that refines the board, passes the solved check and has every clownfish beside coral, every puzzle solution included |
| Soundness.ClueMetSound | src/suggesters/EvanOldsSuggest.js:471-488 | case 1: when the clue is met, the solution has water in every empty cell of the group |
| Soundness.ClueForcesSound | src/suggesters/EvanOldsSuggest.js:490-507 | case 2: when the clue needs every empty cell, the solution has clownfish in all of them |
| Soundness.StarvedNeighbourSound | src/suggesters/EvanOldsSuggest.js:509-542 | case 3: the only empty cell beside a coral without a clownfish holds a clownfish in every solution |
| Soundness.ForcedFishSound | src/suggesters/EvanOldsSuggest.js:509-543 | case 3's write agrees with every solution the board refines to |
| Soundness.TouchingSound | src/suggesters/EvanOldsSuggest.js:545-567 | case 4: an empty cell beside a clownfish is water in every solution |
| Soundness.ClearSound | src/suggesters/EvanOldsSuggest.js:549-568 | case 4's writes agree with every solution the board refines to |
| Soundness.TrySolveGroupSound | src/suggesters/EvanOldsSuggest.js:468-576 | the row/column solver agrees with every solution the board refines to |
| Soundness.SolutionSettled | src/suggesters/EvanOldsSuggest.js:410-435 | in a solution, every column from 1 and every row from 1 is complete, and row 0 holds only clues |
| Soundness.SweepGroupsSound | src/suggesters/EvanOldsSuggest.js:393-407 | a sweep over settled groups agrees with every solution the board refines to |
| Soundness.SweepSound | src/suggesters/EvanOldsSuggest.js:389-407 | one round agrees with every solution the board refines to |
| Soundness.PropagateSound | src/suggesters/EvanOldsSuggest.js:386-408 | the loop agrees with every solution the board refines to |
| Soundness.TryLogicSolveSound | src/suggesters/EvanOldsSuggest.js:321-456 | the whole logic solver agrees with every solution the board refines to |
| Search.Reset | src/suggesters/EvanOldsSuggest.js:262-274 | each cell that is neither coral nor a clue becomes empty; the shape is kept |
| Search.ResetMeaning | src/suggesters/EvanOldsSuggest.js:262-274 | the reset keeps coral and clues, clears everything else, and a second reset changes nothing |
| Search.ResetRefines | src/suggesters/EvanOldsSuggest.js:262-274 | every decided board with the same coral and clues refines the reset board |
| Search.SolveFrom | src/suggesters/EvanOldsSuggest.js:276-316 | any answer passes the solved check, is well-formed, keeps coral and clues, and puts every clownfish beside coral |
| Search.Solve | src/suggesters/EvanOldsSuggest.js:258-316 | the same for the entry point, with or without the reset |
| Search.SolveFromComplete | src/suggesters/EvanOldsSuggest.js:276-316 | whenever a solution is reachable from the board, the backtracking solver finds an answer |
| Search.GuessSafe | src/suggesters/EvanOldsSuggest.js:290-313 | a cell the solver guesses on is a puzzle cell beside coral in no zero-clue row or column |
| Search.GuessKept | src/suggesters/EvanOldsSuggest.js:297-313 | the one-off passes rerun by the recursive call (lines 333-380) keep the water or clownfish just guessed at the first empty cell |
| Search.WriteKept | src/suggesters/EvanOldsSuggest.js:333-380 | a decision written on a puzzle cell beside coral in no zero-clue row or column survives the one-off passes |
| Search.PreprocessEmpty | src/suggesters/EvanOldsSuggest.js:333-380 | a cell the one-off passes leave empty is a puzzle cell in no row or column whose clue is 0 |
| Search.GuessComplete | src/suggesters/EvanOldsSuggest.js:296-313 | if guessing the first empty cell as water or as clownfish leads to an answer, the solver finds one |
| Search.SolveFromGuess | src/suggesters/EvanOldsSuggest.js:286-316 | when propagation stalls, the first empty cell is guessed water first, and clownfish only when the water guess yields no answer |
| Search.SolveFromStuck | src/suggesters/EvanOldsSuggest.js:286-294 | when propagation does not solve the board and no empty cell is left, the result is null |
| Search.SolveFromNone | src/suggesters/EvanOldsSuggest.js:276-316 | when the solver returns null, no solution refines the board |
| Search.SolveFromSolution | src/suggesters/EvanOldsSuggest.js:276-281 | a board that passes the solved check with every clownfish beside coral is returned unchanged, whether or not every coral is fed |
| Search.SolveFromFixedPoint | src/suggesters/EvanOldsSuggest.js:258-316 | the solver returns a board unchanged exactly when it passes the solved check with every clownfish beside coral |
| Search.SolveSolution | src/suggesters/EvanOldsSuggest.js:258-281 | solving such a board without the reset returns it unchanged |
| Search.SolveResetRefines | src/suggesters/EvanOldsSuggest.js:258-274 | with the reset, the answer decides every non-frozen cell and agrees with the board on coral and clues |
| Search.SolvedCell | src/suggesters/EvanOldsSuggest.js:412-423 | a board passing the solved check has only water, clownfish, coral and clue cells |
| Search.SolveComplete | src/suggesters/EvanOldsSuggest.js:258-316 | with the reset, a solution with the board's coral and clues is always found |
| Suggest.FirstWrong | src/suggesters/EvanOldsSuggest.js:58-68 | the scan from row 1 and column 1 returns the first cell in reading order where the board's kind differs from the answer's (in fish-first mode, where the answer has a clownfish), or none exactly when there is no such cell |
| Suggest.NextSuggestion | src/suggesters/EvanOldsSuggest.js:37-72 | fails exactly when the solver finds no answer; otherwise it gives the first missing clownfish in fish-first mode, else the first wrong cell, else (1, 1) |
| Suggest.FirstWrongUnique | src/suggesters/EvanOldsSuggest.js:58-68 | the first wrong cell is unique |
| Suggest.WrongIsPlayable | src/suggesters/EvanOldsSuggest.js:37-72 | a wrong cell is never coral or a clue, and the answer has water or clownfish there |
| Suggest.FishFirstPointsAtFish | src/suggesters/EvanOldsSuggest.js:41-56 | in fish-first mode, while a clownfish is missing, the hint is a cell where the answer has a clownfish and the board does not |
| Suggest.FishWrongIsWrong | src/suggesters/EvanOldsSuggest.js:41-72 | a missing clownfish is also a wrong cell, so fish-first mode falls back to (1, 1) only when the board matches the answer |
| Suggest.OneMissingFish | src/suggesters/EvanOldsSuggest.js:37-72 | a board that matches the answer except for one missing clownfish gets that cell as its hint in either mode |

## Left out

- Randomness: `_getRandomInt` (lines 25-29) is never called by the solver or the hint.
- Object plumbing is not modelled. This covers `Object.freeze` and `Object.defineProperty`, the collection `label`, the `Suggester` base class and `CellSuggestion`. Freezing is a runtime guard: the model only ever writes empty cells, apart from the water passes, which `WaterStep` describes.
- Cloning is not modelled: `_deepCloneBoard` and `_deepCloneRow` are copies, and immutable values make them unnecessary. `_forEachCell` is folded into `Search.Reset`.
- Logging is not modelled: the debug breakpoint test (lines 526-529) and the empty-neighbourhood error message (lines 558-559) have no effect on results.
- `src/actions.js` (action creators) and `src/suggesters.js` (the suggester registry) are neighbouring files and are not part of this model.
- Groups.CountOfKind: its contract only bounds the count. What the count means is stated by `CountZero`, `CountTwo`, `CountGrows`, `CountCovered` and their strict forms.
- Groups.Surrounding: its contract only gives bounds and in-bounds cells. Which cells it holds is stated by `SurroundingMembers`.
- Propagation.ClearTouching: its contract only keeps the shape. What it writes and reports is stated by `ClearTouchingBoard`, `ClearTouchingChanged` and `ClearDecides`.
- Search.SolveFrom: an answer is not proved to give every coral a clownfish. The solved check does not test that rule, so the answer is proved to satisfy the solved check and the coral-border rule only.
- Search.Solve: it is not proved that the reset changes nothing for a puzzle with a unique solution. The answer need not satisfy the coral rule above, so uniqueness among solutions does not pin it down.
- Suggest.NextSuggestion: requires a well-formed board: clue cells exactly in row 0 and column 0, and a corner that is not a zero clue. The source does not check this; the model assumes the layout the puzzle defines. With a zero-clue corner, the source's zero-row pass (lines 340-344) writes water into the clue cells of row 0, which the board copy has frozen (lines 124-127), and the class's strict-mode code throws there.

=== FILE: grid.dfy ===
/** Cells and boards of the coral/clownfish puzzle.

    A board is a rectangular grid. Row 0 and column 0 hold constraint cells whose
    number is the clownfish count required in that row or column; the puzzle cells
    sit at row >= 1 and column >= 1. Cells are identified by their coordinates. */
module Grid {

  datatype Option<T> = None | Some(value: T)

  /** One square of the board. Only constraint squares carry a number. */
  datatype Cell = Empty | Clownfish | Water | Coral | Constraint(value: int)

  type Board = seq<seq<Cell>>

  datatype Pos = Pos(r: int, c: int)

  /** Coral and constraint cells are frozen: no solving step may rewrite them. */
  predicate IsFixed(x: Cell) {
    x == Coral || x.Constraint?
  }

  ghost predicate Rect(b: Board) {
    |b| > 0 && |b[0]| > 0 && forall i :: 0 <= i < |b| ==> |b[i]| == |b[0]|
  }

  predicate InBounds(b: Board, p: Pos) {
    0 <= p.r < |b| && 0 <= p.c < |b[p.r]|
  }

  /** A cell of the puzzle area, outside the constraint row and column. */
  predicate IsPuzzle(b: Board, p: Pos) {
    InBounds(b, p) && p.r >= 1 && p.c >= 1
  }

  function At(b: Board, p: Pos): Cell
    requires InBounds(b, p)
  {
    b[p.r][p.c]
  }

  /** The shape every solving step relies on: constraint cells exactly on the
      border row and column, and a corner that is not a zero clue (the zero-row
      and zero-column passes read the corner as the clue of row 0 and column 0). */
  ghost predicate WellFormed(b: Board) {
    && Rect(b)
    && (forall p :: InBounds(b, p) ==> (At(b, p).Constraint? <==> p.r == 0 || p.c == 0))
    && b[0][0] != Constraint(0)
  }

  ghost predicate SameShape(a: Board, b: Board) {
    |a| == |b| && forall i :: 0 <= i < |a| ==> |a[i]| == |b[i]|
  }

  lemma SameShapeRect(a: Board, b: Board)
    requires Rect(a) && SameShape(a, b)
    ensures Rect(b)
    ensures forall p :: InBounds(a, p) <==> InBounds(b, p)
  {
  }

  /** The board with the cell at `p` replaced by `x`. */
  function Write(b: Board, p: Pos, x: Cell): (r: Board)
    requires InBounds(b, p)
    ensures SameShape(b, r)
    ensures forall q :: InBounds(b, q) ==> At(r, q) == if q == p then x else At(b, q)
  {
    b[p.r := b[p.r][p.c := x]]
  }

  /** `y` is `x`, or `x` was empty and `y` decides it. */
  ghost predicate Resolves(x: Cell, y: Cell) {
    y == x || (x == Empty && (y == Water || y == Clownfish))
  }

  /** `b` agrees with `a` everywhere except that some empty cells of `a` are decided. */
  ghost predicate Refines(a: Board, b: Board) {
    SameShape(a, b) && forall p :: InBounds(a, p) ==> Resolves(At(a, p), At(b, p))
  }

  /** Frozen cells of `a` are unchanged in `b`, and `b` has no frozen cell `a` lacks. */
  ghost predicate KeepsFixed(a: Board, b: Board) {
    SameShape(a, b) &&
    forall p :: InBounds(a, p) ==> (IsFixed(At(a, p)) || IsFixed(At(b, p)) ==> At(b, p) == At(a, p))
  }

  /** The coordinates of the undecided cells; its size bounds every search. */
  ghost function EmptySet(b: Board): set<Pos> {
    set r, c | 0 <= r < |b| && 0 <= c < |b[r]| && b[r][c] == Empty :: Pos(r, c)
  }

  lemma EmptySetMember(b: Board, p: Pos)
    ensures p in EmptySet(b) <==> InBounds(b, p) && At(b, p) == Empty
  {
    if InBounds(b, p) && At(b, p) == Empty {
      assert Pos(p.r, p.c) in EmptySet(b);
    }
  }

  lemma NoEmptyCells(b: Board)
    ensures EmptySet(b) == {} <==> forall p :: InBounds(b, p) ==> At(b, p) != Empty
  {
    if exists p :: InBounds(b, p) && At(b, p) == Empty {
      var p :| InBounds(b, p) && At(b, p) == Empty;
      EmptySetMember(b, p);
    }
    if EmptySet(b) != {} {
      var p :| p in EmptySet(b);
      EmptySetMember(b, p);
    }
  }

  lemma BoardExt(a: Board, b: Board)
    requires SameShape(a, b)
    requires forall p :: InBounds(a, p) ==> At(a, p) == At(b, p)
    ensures a == b
  {
    forall i | 0 <= i < |a|
      ensures a[i] == b[i]
    {
      forall j | 0 <= j < |a[i]|
        ensures a[i][j] == b[i][j]
      {
        assert InBounds(a, Pos(i, j));
      }
    }
  }

  lemma RefinesRefl(a: Board)
    ensures Refines(a, a)
  {
  }

  lemma RefinesTrans(a: Board, b: Board, c: Board)
    requires Refines(a, b) && Refines(b, c)
    ensures Refines(a, c)
  {
    forall p | InBounds(a, p)
      ensures Resolves(At(a, p), At(c, p))
    {
      assert InBounds(b, p);
    }
  }

  lemma RefinesKeepsFixed(a: Board, b: Board)
    requires Refines(a, b)
    ensures KeepsFixed(a, b)
  {
  }

  lemma KeepsFixedTrans(a: Board, b: Board, c: Board)
    requires KeepsFixed(a, b) && KeepsFixed(b, c)
    ensures KeepsFixed(a, c)
  {
    forall p | InBounds(a, p)
      ensures IsFixed(At(a, p)) || IsFixed(At(c, p)) ==> At(c, p) == At(a, p)
    {
      assert InBounds(b, p);
    }
  }

  /** Well-formedness depends only on frozen cells, so steps that keep them keep it. */
  lemma KeepsFixedWellFormed(a: Board, b: Board)
    requires WellFormed(a) && KeepsFixed(a, b)
    ensures WellFormed(b)
  {
    forall p | InBounds(b, p)
      ensures At(b, p).Constraint? <==> p.r == 0 || p.c == 0
    {
      assert InBounds(a, p);
    }
    assert InBounds(a, Pos(0, 0));
  }

  lemma SubsetSmaller<T>(x: T, small: set<T>, big: set<T>)
    requires small <= big && x in big && x !in small
    ensures |small| < |big|
  {
    assert small * (big - small) == {};
    assert small + (big - small) == big;
    assert x in big - small;
  }

  /** Deciding empty cells never creates new ones, and deciding at least one
      strictly shrinks the set of undecided cells. */
  lemma RefinesShrinks(a: Board, b: Board)
    requires Refines(a, b)
    ensures EmptySet(b) <= EmptySet(a)
    ensures a != b ==> |EmptySet(b)| < |EmptySet(a)|
  {
    forall p | p in EmptySet(b)
      ensures p in EmptySet(a)
    {
      EmptySetMember(b, p);
      EmptySetMember(a, p);
    }
    if a != b {
      if forall p :: InBounds(a, p) ==> At(a, p) == At(b, p) {
        BoardExt(a, b);
      }
      var p :| InBounds(a, p) && At(a, p) != At(b, p);
      EmptySetMember(a, p);
      EmptySetMember(b, p);
      SubsetSmaller(p, EmptySet(b), EmptySet(a));
    }
  }

  /** Two refinement steps change the board exactly when one of them does. */
  lemma RefinesChain(a: Board, b: Board, c: Board)
    requires Refines(a, b) && Refines(b, c)
    ensures Refines(a, c)
    ensures a != c <==> a != b || b != c
  {
    RefinesTrans(a, b, c);
    RefinesShrinks(a, b);
    RefinesShrinks(b, c);
  }

  /** A board without undecided cells has no proper refinement. */
  lemma RefinesComplete(a: Board, b: Board)
    requires Refines(a, b) && EmptySet(a) == {}
    ensures a == b
  {
    forall p | InBounds(a, p)
      ensures At(a, p) == At(b, p)
    {
      EmptySetMember(a, p);
    }
    BoardExt(a, b);
  }

  /** Deciding one empty cell. */
  lemma WriteDecides(b: Board, p: Pos, x: Cell)
    requires InBounds(b, p) && At(b, p) == Empty && (x == Water || x == Clownfish)
    ensures Refines(b, Write(b, p, x))
    ensures EmptySet(Write(b, p, x)) == EmptySet(b) - {p}
  {
    var w := Write(b, p, x);
    forall q
      ensures q in EmptySet(w) <==> q in EmptySet(b) - {p}
    {
      EmptySetMember(w, q);
      EmptySetMember(b, q);
    }
  }

  /** A step that writes no empty cell cannot grow the set of undecided cells. */
  lemma NoNewEmpty(a: Board, b: Board)
    requires SameShape(a, b)
    requires forall p :: InBounds(a, p) && At(b, p) == Empty ==> At(a, p) == Empty
    ensures EmptySet(b) <= EmptySet(a)
  {
    forall p | p in EmptySet(b)
      ensures p in EmptySet(a)
    {
      EmptySetMember(b, p);
      EmptySetMember(a, p);
    }
  }
}

=== FILE: groups.dfy ===
/** Cell groups: rows, columns and neighbourhoods of a board, as sequences of
    coordinates, with the two aggregate queries the solver asks of them. */
module Groups {
  import opened Grid

  ghost predicate AllIn(b: Board, ps: seq<Pos>) {
    forall q :: q in ps ==> InBounds(b, q)
  }

  /** Row `r`, left to right, starting with its constraint cell. */
  function RowGroup(b: Board, r: int): (g: seq<Pos>)
    requires Rect(b) && 0 <= r < |b|
    ensures |g| == |b[r]| && AllIn(b, g)
    ensures forall q :: q in g <==> q.r == r && InBounds(b, q)
    ensures forall q :: q in g[1..] <==> q.r == r && q.c >= 1 && InBounds(b, q)
    ensures forall i :: 0 <= i < |g| ==> g[i] == Pos(r, i)
  {
    var g := seq(|b[r]|, i => Pos(r, i));
    assert forall q: Pos :: q.r == r && 0 <= q.c < |b[r]| ==> g[q.c] == q;
    assert forall q: Pos :: q.r == r && 1 <= q.c < |b[r]| ==> g[1..][q.c - 1] == q;
    g
  }

  /** Column `c`, top to bottom, starting with its constraint cell. */
  function ColumnGroup(b: Board, c: int): (g: seq<Pos>)
    requires Rect(b) && 0 <= c < |b[0]|
    ensures |g| == |b| && AllIn(b, g)
    ensures forall q :: q in g <==> q.c == c && InBounds(b, q)
    ensures forall q :: q in g[1..] <==> q.c == c && q.r >= 1 && InBounds(b, q)
    ensures forall i :: 0 <= i < |g| ==> g[i] == Pos(i, c)
  {
    var g := seq(|b|, i => Pos(i, c));
    assert forall q: Pos :: q.c == c && 0 <= q.r < |b| ==> g[q.r] == q;
    assert forall q: Pos :: q.c == c && 1 <= q.r < |b| ==> g[1..][q.r - 1] == q;
    g
  }

  /** The number of cells of type `k` in the group. */
  function CountOfKind(b: Board, ps: seq<Pos>, k: Cell): (n: nat)
    requires AllIn(b, ps) && !k.Constraint?
    ensures n <= |ps|
    decreases |ps|
  {
    if |ps| == 0 then 0
    else (if At(b, ps[0]) == k then 1 else 0) + CountOfKind(b, ps[1..], k)
  }

  /** A group has no cell of type `k` exactly when its count for `k` is zero. */
  lemma {:induction false} CountZero(b: Board, ps: seq<Pos>, k: Cell)
    requires AllIn(b, ps) && !k.Constraint?
    ensures CountOfKind(b, ps, k) == 0 <==> forall i :: 0 <= i < |ps| ==> At(b, ps[i]) != k
    decreases |ps|
  {
    if |ps| > 0 {
      CountZero(b, ps[1..], k);
      assert forall i :: 1 <= i < |ps| ==> ps[i] == ps[1..][i - 1];
    }
  }

  /** The first cell of type `k` in the group, if there is one. */
  function FirstOfKind(b: Board, ps: seq<Pos>, k: Cell): (r: Option<Pos>)
    requires AllIn(b, ps) && !k.Constraint?
    ensures r.None? <==> forall i :: 0 <= i < |ps| ==> At(b, ps[i]) != k
    ensures r.Some? ==> exists i :: 0 <= i < |ps| && ps[i] == r.value && At(b, ps[i]) == k &&
                                    forall j :: 0 <= j < i ==> At(b, ps[j]) != k
    decreases |ps|
  {
    if |ps| == 0 then None
    else if At(b, ps[0]) == k then Some(ps[0])
    else
      var rest := FirstOfKind(b, ps[1..], k);
      assert forall i :: 1 <= i < |ps| ==> ps[i] == ps[1..][i - 1];
      rest
  }

  /** A group has a first cell of type `k` exactly when its count for `k` is positive. */
  lemma FirstOfKindCount(b: Board, ps: seq<Pos>, k: Cell)
    requires AllIn(b, ps) && !k.Constraint?
    ensures FirstOfKind(b, ps, k).Some? <==> CountOfKind(b, ps, k) > 0
  {
    CountZero(b, ps, k);
  }

  /** Row-major scan order: `q` comes before `p`. */
  predicate Before(q: Pos, p: Pos) {
    q.r < p.r || (q.r == p.r && q.c < p.c)
  }

  /** The first empty cell of rows `r0` onwards, scanning row by row. */
  function FirstEmptyFrom(b: Board, r0: int): (r: Option<Pos>)
    requires Rect(b) && 0 <= r0 <= |b|
    ensures r.None? <==> forall q :: InBounds(b, q) && q.r >= r0 ==> At(b, q) != Empty
    ensures r.Some? ==> InBounds(b, r.value) && r.value.r >= r0 && At(b, r.value) == Empty
    ensures r.Some? ==> forall q :: InBounds(b, q) && q.r >= r0 && Before(q, r.value) ==> At(b, q) != Empty
    decreases |b| - r0
  {
    if r0 == |b| then None
    else
      var row := RowGroup(b, r0);
      match FirstOfKind(b, row, Empty)
      case Some(p) =>
        assert forall q :: InBounds(b, q) && q.r == r0 ==> row[q.c] == q;
        Some(p)
      case None =>
        assert forall q :: InBounds(b, q) && q.r == r0 ==> row[q.c] == q;
        FirstEmptyFrom(b, r0 + 1)
  }

  /** The first empty cell of the board in row-major order, or None when every
      cell is decided. */
  function FirstEmpty(b: Board): (r: Option<Pos>)
    requires Rect(b)
    ensures r.None? <==> EmptySet(b) == {}
    ensures r.Some? ==> InBounds(b, r.value) && At(b, r.value) == Empty
    ensures r.Some? ==> forall q :: InBounds(b, q) && Before(q, r.value) ==> At(b, q) != Empty
  {
    var r := FirstEmptyFrom(b, 0);
    NoEmptyCells(b);
    r
  }

  lemma CountTwo(b: Board, ps: seq<Pos>, k: Cell, i: int, j: int)
    requires AllIn(b, ps) && !k.Constraint?
    requires 0 <= i < |ps| && 0 <= j < |ps| && i != j
    requires At(b, ps[i]) == k && At(b, ps[j]) == k
    ensures CountOfKind(b, ps, k) >= 2
    decreases |ps|
  {
    if i != 0 && j != 0 {
      CountTwo(b, ps[1..], k, i - 1, j - 1);
    } else {
      var o := if i == 0 then j else i;
      assert ps[1..][o - 1] == ps[o];
      CountZero(b, ps[1..], k);
    }
  }

  /** The count only looks at cells of type `k`. */
  lemma CountSameKind(a: Board, b: Board, ps: seq<Pos>, k: Cell)
    requires AllIn(a, ps) && AllIn(b, ps) && !k.Constraint?
    requires forall i :: 0 <= i < |ps| ==> (At(a, ps[i]) == k <==> At(b, ps[i]) == k)
    ensures CountOfKind(a, ps, k) == CountOfKind(b, ps, k)
    decreases |ps|
  {
    if |ps| > 0 {
      assert forall i :: 1 <= i < |ps| ==> ps[i] == ps[1..][i - 1];
      CountSameKind(a, b, ps[1..], k);
    }
  }

  /** The type of the cell at (r, c), or `dflt` when the coordinates lie past the
      last row or column. The coordinates must not be negative. */
  function GetCellType(b: Board, r: int, c: int, dflt: Cell): (t: Cell)
    requires Rect(b) && r >= 0 && c >= 0
    ensures InBounds(b, Pos(r, c)) ==> t == At(b, Pos(r, c))
    ensures !InBounds(b, Pos(r, c)) ==> t == dflt
  {
    if r >= |b| then dflt
    else if c >= |b[0]| then dflt
    else b[r][c]
  }

  predicate Orthogonal(p: Pos, q: Pos) {
    (p.r == q.r && (q.c == p.c - 1 || q.c == p.c + 1)) ||
    (p.c == q.c && (q.r == p.r - 1 || q.r == p.r + 1))
  }

  /** One king move away: orthogonally or diagonally adjacent. */
  predicate Adjacent(p: Pos, q: Pos) {
    p != q && p.r - 1 <= q.r <= p.r + 1 && p.c - 1 <= q.c <= p.c + 1
  }

  predicate Neighbour(p: Pos, q: Pos, diagonals: bool) {
    if diagonals then Adjacent(p, q) else Orthogonal(p, q)
  }

  /** True iff a cell directly above, below, left or right of the puzzle cell `p`
      is coral; cells past the edge read as water. */
  function BordersCoral(b: Board, p: Pos): (r: bool)
    requires Rect(b) && IsPuzzle(b, p)
    ensures r <==> exists q :: InBounds(b, q) && Orthogonal(p, q) && At(b, q) == Coral
  {
    var left := GetCellType(b, p.r, p.c - 1, Water);
    var right := GetCellType(b, p.r, p.c + 1, Water);
    var up := GetCellType(b, p.r - 1, p.c, Water);
    var down := GetCellType(b, p.r + 1, p.c, Water);
    assert forall q :: Orthogonal(p, q) ==>
      q == Pos(p.r, p.c - 1) || q == Pos(p.r, p.c + 1) || q == Pos(p.r - 1, p.c) || q == Pos(p.r + 1, p.c);
    assert left == Coral ==> InBounds(b, Pos(p.r, p.c - 1));
    assert right == Coral ==> InBounds(b, Pos(p.r, p.c + 1));
    assert up == Coral ==> InBounds(b, Pos(p.r - 1, p.c));
    assert down == Coral ==> InBounds(b, Pos(p.r + 1, p.c));
    left == Coral || right == Coral || up == Coral || down == Coral
  }

  predicate Diagonal(p: Pos, q: Pos) {
    (q.r == p.r - 1 || q.r == p.r + 1) && (q.c == p.c - 1 || q.c == p.c + 1)
  }

  /** The cells above, below, left and right of `p`, in that order, that lie
      inside a `rows` by `cols` board and outside its constraint row and column. */
  function OrthogonalCells(rows: int, cols: int, p: Pos): (s: seq<Pos>)
    requires 0 <= p.r < rows && 0 <= p.c < cols
    ensures |s| <= 4
    ensures forall q :: q in s ==> Orthogonal(p, q) && 0 <= q.r < rows && 0 <= q.c < cols
    ensures 1 <= p.r < rows && 1 <= p.c < cols ==>
      forall q :: q in s <==> 1 <= q.r < rows && 1 <= q.c < cols && Orthogonal(p, q)
  {
    var up := if p.r > 1 then [Pos(p.r - 1, p.c)] else [];
    var down := if p.r < rows - 1 then [Pos(p.r + 1, p.c)] else [];
    var left := if p.c > 1 then [Pos(p.r, p.c - 1)] else [];
    var right := if p.c < cols - 1 then [Pos(p.r, p.c + 1)] else [];
    var s := up + down + left + right;
    assert forall q :: q in s <==> q in up || q in down || q in left || q in right;
    assert forall q :: Orthogonal(p, q) ==>
      q == Pos(p.r, p.c - 1) || q == Pos(p.r, p.c + 1) || q == Pos(p.r - 1, p.c) || q == Pos(p.r + 1, p.c);
    s
  }

  /** The four diagonal cells of `p`, in the order up-left, down-left, down-right,
      up-right, that lie inside a `rows` by `cols` board and outside its
      constraint row and column. */
  function DiagonalCells(rows: int, cols: int, p: Pos): (s: seq<Pos>)
    ensures |s| <= 4
    ensures forall q :: q in s <==> Diagonal(p, q) && 0 < q.r < rows && 0 < q.c < cols
  {
    var ds := [Pos(p.r - 1, p.c - 1), Pos(p.r + 1, p.c - 1), Pos(p.r + 1, p.c + 1), Pos(p.r - 1, p.c + 1)];
    assert forall q :: Diagonal(p, q) <==> q in ds;
    KeepInside(rows, cols, ds)
  }

  /** The cells of `ds` that lie in the puzzle area, in order. */
  function KeepInside(rows: int, cols: int, ds: seq<Pos>): (s: seq<Pos>)
    ensures |s| <= |ds|
    ensures forall q :: q in s <==> q in ds && 0 < q.r < rows && 0 < q.c < cols
  {
    if |ds| == 0 then []
    else
      var d := ds[0];
      var rest := KeepInside(rows, cols, ds[1..]);
      assert forall q :: q in ds <==> q == d || q in ds[1..];
      if 0 < d.r < rows && 0 < d.c < cols then [d] + rest else rest
  }

  /** The neighbourhood of the cell at `p`: the cells above, below, left and right
      of it, followed by the four diagonal cells when `diagonals` is set, leaving
      out everything past the edge and everything in the constraint row or column. */
  function Surrounding(b: Board, p: Pos, diagonals: bool): (s: seq<Pos>)
    requires Rect(b) && InBounds(b, p)
    ensures AllIn(b, s)
    ensures |s| <= if diagonals then 8 else 4
  {
    var orth := OrthogonalCells(|b|, |b[0]|, p);
    var diag := if diagonals then DiagonalCells(|b|, |b[0]|, p) else [];
    assert forall q :: q in orth + diag <==> q in orth || q in diag;
    orth + diag
  }

  /** The neighbourhood holds only neighbours of `p`, and, around a puzzle cell,
      exactly its neighbours that are puzzle cells. */
  lemma SurroundingMembers(b: Board, p: Pos, diagonals: bool)
    requires Rect(b) && InBounds(b, p)
    ensures forall q :: q in Surrounding(b, p, diagonals) ==> Neighbour(p, q, diagonals)
    ensures IsPuzzle(b, p) ==>
      forall q :: q in Surrounding(b, p, diagonals) <==> IsPuzzle(b, q) && Neighbour(p, q, diagonals)
  {
    var orth := OrthogonalCells(|b|, |b[0]|, p);
    var diag := if diagonals then DiagonalCells(|b|, |b[0]|, p) else [];
    assert forall q :: q in orth + diag <==> q in orth || q in diag;
    assert forall q :: Adjacent(p, q) <==> Orthogonal(p, q) || Diagonal(p, q);
  }

  /** The neighbourhood depends only on the board's dimensions. */
  lemma SurroundingShape(a: Board, b: Board, p: Pos, diagonals: bool)
    requires Rect(a) && SameShape(a, b) && InBounds(a, p)
    ensures Rect(b) && InBounds(b, p)
    ensures Surrounding(a, p, diagonals) == Surrounding(b, p, diagonals)
  {
    SameShapeRect(a, b);
  }

  /** Adjacency is symmetric, so `q` lies around `p` exactly when `p` lies around `q`. */
  lemma SurroundingSymmetric(b: Board, p: Pos, q: Pos, diagonals: bool)
    requires Rect(b) && IsPuzzle(b, p) && IsPuzzle(b, q)
    requires q in Surrounding(b, p, diagonals)
    ensures p in Surrounding(b, q, diagonals)
  {
    SurroundingMembers(b, p, diagonals);
    SurroundingMembers(b, q, diagonals);
  }

  /** The coral test of the isolation pass and the neighbourhood query agree. */
  lemma BordersCoralSurrounding(b: Board, p: Pos)
    requires WellFormed(b) && IsPuzzle(b, p)
    ensures BordersCoral(b, p) <==> CountOfKind(b, Surrounding(b, p, false), Coral) > 0
  {
    var s := Surrounding(b, p, false);
    SurroundingMembers(b, p, false);
    if BordersCoral(b, p) {
      var q :| InBounds(b, q) && Orthogonal(p, q) && At(b, q) == Coral;
      assert IsPuzzle(b, q);
      var i :| 0 <= i < |s| && s[i] == q;
      CountZero(b, s, Coral);
    }
    if CountOfKind(b, s, Coral) > 0 {
      CountZero(b, s, Coral);
      var i :| 0 <= i < |s| && At(b, s[i]) == Coral;
      assert s[i] in s;
    }
  }

  /** Two boards of the same shape that agree on which cells hold `k` give
      every group the same count of `k`. */
  lemma CountSameKindBoards(a: Board, b: Board, ps: seq<Pos>, k: Cell)
    requires SameShape(a, b) && AllIn(a, ps) && !k.Constraint?
    requires forall p :: InBounds(a, p) ==> (At(a, p) == k <==> At(b, p) == k)
    ensures AllIn(b, ps)
    ensures CountOfKind(a, ps, k) == CountOfKind(b, ps, k)
  {
    assert forall i :: 0 <= i < |ps| ==> InBounds(a, ps[i]) && InBounds(b, ps[i]);
    CountSameKind(a, b, ps, k);
  }

  /** A group with no cell of type `k` has none at any of its members. */
  lemma CountZeroMember(b: Board, ps: seq<Pos>, k: Cell, q: Pos)
    requires AllIn(b, ps) && !k.Constraint? && CountOfKind(b, ps, k) == 0 && q in ps
    ensures InBounds(b, q) && At(b, q) != k
  {
    CountZero(b, ps, k);
  }

  /** If every cell of type `k` in `a` still has type `k` in `b`, then `b` has at
      least as many. */
  lemma {:induction false} CountGrows(a: Board, b: Board, ps: seq<Pos>, k: Cell)
    requires AllIn(a, ps) && AllIn(b, ps) && !k.Constraint?
    requires forall q :: q in ps && At(a, q) == k ==> At(b, q) == k
    ensures CountOfKind(a, ps, k) <= CountOfKind(b, ps, k)
    decreases |ps|
  {
    if |ps| > 0 {
      assert forall q :: q in ps[1..] ==> q in ps;
      CountGrows(a, b, ps[1..], k);
    }
  }

  /** ... and strictly more when another cell of the group became `k`. */
  lemma {:induction false} CountGrowsStrictly(a: Board, b: Board, ps: seq<Pos>, k: Cell, j: int)
    requires AllIn(a, ps) && AllIn(b, ps) && !k.Constraint?
    requires forall q :: q in ps && At(a, q) == k ==> At(b, q) == k
    requires 0 <= j < |ps| && At(a, ps[j]) != k && At(b, ps[j]) == k
    ensures CountOfKind(a, ps, k) < CountOfKind(b, ps, k)
    decreases |ps|
  {
    var rest := ps[1..];
    assert forall q :: q in rest ==> q in ps;
    if j == 0 {
      CountGrows(a, b, rest, k);
    } else {
      assert ps[j] == rest[j - 1];
      CountGrowsStrictly(a, b, rest, k, j - 1);
    }
  }

  /** If every cell of type `k` in `b` had type `k1` or `k2` in `a`, then `b` has
      at most as many cells of type `k` as `a` has of the two together. */
  lemma {:induction false} CountCovered(a: Board, b: Board, ps: seq<Pos>, k: Cell, k1: Cell, k2: Cell)
    requires AllIn(a, ps) && AllIn(b, ps) && !k.Constraint? && !k1.Constraint? && !k2.Constraint? && k1 != k2
    requires forall q :: q in ps && At(b, q) == k ==> At(a, q) == k1 || At(a, q) == k2
    ensures CountOfKind(b, ps, k) <= CountOfKind(a, ps, k1) + CountOfKind(a, ps, k2)
    decreases |ps|
  {
    if |ps| > 0 {
      assert forall q :: q in ps[1..] ==> q in ps;
      CountCovered(a, b, ps[1..], k, k1, k2);
    }
  }

  /** ... and strictly fewer when some `k1` or `k2` cell of `a` did not become `k`. */
  lemma {:induction false} CountCoveredStrictly(a: Board, b: Board, ps: seq<Pos>, k: Cell, k1: Cell, k2: Cell, j: int)
    requires AllIn(a, ps) && AllIn(b, ps) && !k.Constraint? && !k1.Constraint? && !k2.Constraint? && k1 != k2
    requires forall q :: q in ps && At(b, q) == k ==> At(a, q) == k1 || At(a, q) == k2
    requires 0 <= j < |ps| && (At(a, ps[j]) == k1 || At(a, ps[j]) == k2) && At(b, ps[j]) != k
    ensures CountOfKind(b, ps, k) < CountOfKind(a, ps, k1) + CountOfKind(a, ps, k2)
    decreases |ps|
  {
    var rest := ps[1..];
    assert forall q :: q in rest ==> q in ps;
    assert CountOfKind(b, ps, k) == (if At(b, ps[0]) == k then 1 else 0) + CountOfKind(b, rest, k);
    assert CountOfKind(a, ps, k1) == (if At(a, ps[0]) == k1 then 1 else 0) + CountOfKind(a, rest, k1);
    assert CountOfKind(a, ps, k2) == (if At(a, ps[0]) == k2 then 1 else 0) + CountOfKind(a, rest, k2);
    if j == 0 {
      CountCovered(a, b, rest, k, k1, k2);
    } else {
      assert ps[j] == rest[j - 1];
      CountCoveredStrictly(a, b, rest, k, k1, k2, j - 1);
    }
  }

  /** Rows and columns depend only on the board's dimensions. */
  lemma GroupsShape(a: Board, b: Board)
    requires Rect(a) && SameShape(a, b)
    ensures Rect(b)
    ensures forall r :: 0 <= r < |a| ==> RowGroup(a, r) == RowGroup(b, r)
    ensures forall c :: 0 <= c < |a[0]| ==> ColumnGroup(a, c) == ColumnGroup(b, c)
  {
    SameShapeRect(a, b);
  }
}

=== FILE: propagation.dfy ===
/** The constraint propagation engine: the zero-clue and isolation passes, the
    four per-group deduction cases, the fixed-point loop over all columns and
    rows, and the global solved check. No step guesses. */
module Propagation {
  import opened Grid
  import opened Groups

  /** A board after a pass, and whether the pass rewrote any cell. */
  datatype Pass = Pass(board: Board, changed: bool)

  /** The outcome of trying to solve one row or column. */
  datatype GroupResult = GroupResult(board: Board, solved: bool, changed: bool)

  /** The board propagation reached, and whether it passes the solved check. */
  datatype LogicResult = LogicResult(board: Board, solved: bool)

  // ---------------------------------------------------------------------------
  // The passes that run once, before the fixed-point loop

  /** Every non-coral cell of `ps` becomes water. */
  function FloodWater(b: Board, ps: seq<Pos>): (r: Board)
    requires AllIn(b, ps)
    ensures SameShape(b, r)
    ensures forall q :: InBounds(b, q) ==>
      At(r, q) == if q in ps && At(b, q) != Coral then Water else At(b, q)
    decreases |ps|
  {
    if |ps| == 0 then b
    else
      var b1 := if At(b, ps[0]) != Coral then Write(b, ps[0], Water) else b;
      assert forall q :: q in ps <==> q == ps[0] || q in ps[1..];
      assert forall i :: 0 <= i < |ps| - 1 ==> ps[1..][i] == ps[i + 1];
      FloodWater(b1, ps[1..])
  }

  /** A constraint cell demanding no clownfish at all. */
  predicate IsZeroClue(x: Cell) {
    x == Constraint(0)
  }

  /** The zero-row pass over rows `r0` onwards: in every row whose clue is 0,
      every non-coral cell after the clue becomes water. */
  function ZeroRowsFrom(b: Board, r0: int): (res: Board)
    requires Rect(b) && 0 <= r0 <= |b|
    ensures SameShape(b, res)
    ensures forall q :: InBounds(b, q) ==>
      At(res, q) == if q.r >= r0 && q.c >= 1 && IsZeroClue(b[q.r][0]) && At(b, q) != Coral then Water else At(b, q)
    decreases |b| - r0
  {
    if r0 == |b| then b
    else
      var b1 := if IsZeroClue(b[r0][0]) then FloodWater(b, RowGroup(b, r0)[1..]) else b;
      SameShapeRect(b, b1);
      assert forall r :: r0 < r < |b| ==> b1[r][0] == At(b1, Pos(r, 0)) == At(b, Pos(r, 0));
      ZeroRowsFrom(b1, r0 + 1)
  }

  /** The zero-column pass over columns `c0` onwards: in every column whose clue
      is 0, every non-coral cell below the clue becomes water. */
  function ZeroColumnsFrom(b: Board, c0: int): (res: Board)
    requires Rect(b) && 0 <= c0 <= |b[0]|
    ensures SameShape(b, res)
    ensures forall q :: InBounds(b, q) ==>
      At(res, q) == if q.c >= c0 && q.r >= 1 && IsZeroClue(b[0][q.c]) && At(b, q) != Coral then Water else At(b, q)
    decreases |b[0]| - c0
  {
    if c0 == |b[0]| then b
    else
      var b1 := if IsZeroClue(b[0][c0]) then FloodWater(b, ColumnGroup(b, c0)[1..]) else b;
      SameShapeRect(b, b1);
      assert forall c :: c0 < c < |b[0]| ==> b1[0][c] == At(b1, Pos(0, c)) == At(b, Pos(0, c));
      ZeroColumnsFrom(b1, c0 + 1)
  }

  /** Every non-coral cell of `ps` with no orthogonal coral neighbour becomes water:
      a clownfish must border coral, so such a cell can never hold one. */
  function IsolateCells(b: Board, ps: seq<Pos>): (r: Board)
    requires Rect(b) && forall q :: q in ps ==> IsPuzzle(b, q)
    ensures SameShape(b, r)
    ensures forall q :: InBounds(b, q) ==>
      At(r, q) == if q in ps && At(b, q) != Coral && !BordersCoral(b, q) then Water else At(b, q)
    decreases |ps|
  {
    if |ps| == 0 then b
    else
      var p := ps[0];
      assert p in ps && IsPuzzle(b, p) && InBounds(b, p);
      var b1 := if At(b, p) != Coral && !BordersCoral(b, p) then Write(b, p, Water) else b;
      SameShapeRect(b, b1);
      SameCoralBorders(b, b1);
      assert forall q :: q in ps <==> q == p || q in ps[1..];
      IsolateCells(b1, ps[1..])
  }

  /** Boards with the same coral cells agree on which puzzle cells border coral. */
  lemma SameCoralBorders(a: Board, b: Board)
    requires Rect(a) && SameShape(a, b)
    requires forall q :: InBounds(a, q) ==> (At(a, q) == Coral <==> At(b, q) == Coral)
    ensures Rect(b)
    ensures forall q :: IsPuzzle(a, q) ==> BordersCoral(a, q) == BordersCoral(b, q)
  {
    SameShapeRect(a, b);
  }

  /** The isolation pass over columns `c0` onwards, each column top to bottom. */
  function IsolateColumnsFrom(b: Board, c0: int): (res: Board)
    requires Rect(b) && 1 <= c0 <= |b[0]|
    ensures SameShape(b, res)
    ensures forall q :: InBounds(b, q) ==>
      At(res, q) == if q.c >= c0 && q.r >= 1 && At(b, q) != Coral && !BordersCoral(b, q) then Water else At(b, q)
    decreases |b[0]| - c0
  {
    if c0 == |b[0]| then b
    else
      var b1 := IsolateCells(b, ColumnGroup(b, c0)[1..]);
      SameShapeRect(b, b1);
      SameCoralBorders(b, b1);
      IsolateColumnsFrom(b1, c0 + 1)
  }

  /** Every non-coral puzzle cell without an orthogonal coral neighbour is water. */
  ghost predicate Isolated(b: Board)
    requires Rect(b)
  {
    forall p :: IsPuzzle(b, p) && At(b, p) != Coral && !BordersCoral(b, p) ==> At(b, p) == Water
  }

  /** `b` is `a` with some non-coral puzzle cells turned to water: the only kind
      of rewrite the one-off passes make. */
  ghost predicate WaterStep(a: Board, b: Board) {
    SameShape(a, b) &&
    forall q :: InBounds(a, q) ==> At(b, q) == At(a, q) || (IsPuzzle(a, q) && At(a, q) != Coral && At(b, q) == Water)
  }

  /** On a well-formed board such a rewrite keeps every frozen cell, keeps the
      board well-formed and creates no undecided cell. */
  lemma WaterStepKeepsFixed(a: Board, b: Board)
    requires WellFormed(a) && WaterStep(a, b)
    ensures KeepsFixed(a, b) && WellFormed(b)
    ensures EmptySet(b) <= EmptySet(a)
  {
    assert KeepsFixed(a, b);
    KeepsFixedWellFormed(a, b);
    NoNewEmpty(a, b);
  }

  /** The three passes that run once, in order: zero-clue rows (row 0 included),
      zero-clue columns (column 0 included), then isolation over every puzzle cell. */
  function Preprocess(b: Board): (res: Board)
    requires WellFormed(b)
    ensures KeepsFixed(b, res) && WellFormed(res)
    ensures EmptySet(res) <= EmptySet(b)
    ensures Isolated(res)
    ensures ZeroLinesWater(b, res)
  {
    ZeroLinesPasses(b);
    var z1 := ZeroRowsFrom(b, 0);
    ZeroRowsStep(b);
    WaterStepKeepsFixed(b, z1);
    var z2 := ZeroColumnsFrom(z1, 0);
    ZeroColumnsStep(z1);
    WaterStepKeepsFixed(z1, z2);
    KeepsFixedTrans(b, z1, z2);
    var res := IsolateColumnsFrom(z2, 1);
    IsolationStep(z2);
    WaterStepKeepsFixed(z2, res);
    KeepsFixedTrans(b, z2, res);
    res
  }

  /** Every non-coral puzzle cell of a row or column whose clue in `b` is 0 is
      water in `r`. */
  ghost predicate ZeroLinesWater(b: Board, r: Board)
    requires Rect(b) && SameShape(b, r)
  {
    forall q :: IsPuzzle(b, q) && At(b, q) != Coral && (IsZeroClue(b[q.r][0]) || IsZeroClue(b[0][q.c])) ==>
      At(r, q) == Water
  }

  /** The zero-row and zero-column passes leave every non-coral cell of a
      zero-clue line as water, and the isolation pass after them writes only
      water. */
  lemma ZeroLinesPasses(b: Board)
    requires WellFormed(b)
    ensures Rect(ZeroRowsFrom(b, 0)) && Rect(ZeroColumnsFrom(ZeroRowsFrom(b, 0), 0))
    ensures ZeroLinesWater(b, IsolateColumnsFrom(ZeroColumnsFrom(ZeroRowsFrom(b, 0), 0), 1))
  {
    var z1 := ZeroRowsFrom(b, 0);
    SameShapeRect(b, z1);
    var z2 := ZeroColumnsFrom(z1, 0);
    SameShapeRect(z1, z2);
    var res := IsolateColumnsFrom(z2, 1);
    forall q | IsPuzzle(b, q) && At(b, q) != Coral && (IsZeroClue(b[q.r][0]) || IsZeroClue(b[0][q.c]))
      ensures At(res, q) == Water
    {
      assert InBounds(b, Pos(0, 0)) && InBounds(b, Pos(0, q.c));
    }
  }

  /** Deciding empty cells keeps every zero-clue water cell. */
  lemma ZeroLinesRefines(b: Board, a: Board, c: Board)
    requires Rect(b) && SameShape(b, a) && ZeroLinesWater(b, a) && Refines(a, c)
    ensures SameShape(b, c) && ZeroLinesWater(b, c)
  {
    forall q | IsPuzzle(b, q) && At(b, q) != Coral && (IsZeroClue(b[q.r][0]) || IsZeroClue(b[0][q.c]))
      ensures At(c, q) == Water
    {
      assert InBounds(a, q);
    }
  }

  /** The one-off passes keep a puzzle cell beside coral whose row and column
      clues are not 0, whatever it holds. */
  lemma PassesKeep(b: Board, p: Pos)
    requires WellFormed(b) && IsPuzzle(b, p) && BordersCoral(b, p)
    requires !IsZeroClue(b[p.r][0]) && !IsZeroClue(b[0][p.c])
    ensures At(Preprocess(b), p) == At(b, p)
  {
    var z1 := ZeroRowsFrom(b, 0);
    SameShapeRect(b, z1);
    var z2 := ZeroColumnsFrom(z1, 0);
    SameShapeRect(z1, z2);
    assert InBounds(b, Pos(0, 0)) && InBounds(b, Pos(0, p.c));
    assert At(z1, p) == At(b, p);
    SameCoralBorders(b, z2);
  }

  /** Row 0 is never a zero row, since the corner is not a zero clue. */
  lemma ZeroRowsStep(b: Board)
    requires WellFormed(b)
    ensures WaterStep(b, ZeroRowsFrom(b, 0))
  {
    assert InBounds(b, Pos(0, 0));
  }

  lemma ZeroColumnsStep(b: Board)
    requires WellFormed(b)
    ensures WaterStep(b, ZeroColumnsFrom(b, 0))
  {
    assert InBounds(b, Pos(0, 0));
  }

  lemma IsolationStep(b: Board)
    requires Rect(b)
    ensures WaterStep(b, IsolateColumnsFrom(b, 1))
    ensures Rect(IsolateColumnsFrom(b, 1)) && Isolated(IsolateColumnsFrom(b, 1))
  {
    SameCoralBorders(b, IsolateColumnsFrom(b, 1));
  }

  /** Deciding empty cells keeps the isolation property. */
  lemma IsolatedRefines(a: Board, b: Board)
    requires Rect(a) && Isolated(a) && Refines(a, b)
    ensures Rect(b) && Isolated(b)
  {
    SameCoralBorders(a, b);
  }

  // ---------------------------------------------------------------------------
  // The four deduction cases for one row or column

  /** `b` is `a` with every empty cell of `ps` set to `x`. */
  ghost predicate FilledWith(a: Board, b: Board, ps: seq<Pos>, x: Cell) {
    SameShape(a, b) &&
    forall q :: InBounds(a, q) ==> At(b, q) == if q in ps && At(a, q) == Empty then x else At(a, q)
  }

  /** Every empty cell of `ps` becomes `x`; the pass reports a change exactly when
      it found an empty cell. */
  function Fill(b: Board, ps: seq<Pos>, x: Cell): (res: Pass)
    requires AllIn(b, ps) && (x == Water || x == Clownfish)
    ensures FilledWith(b, res.board, ps, x)
    ensures res.changed <==> exists q :: q in ps && At(b, q) == Empty
    decreases |ps|
  {
    if |ps| == 0 then Pass(b, false)
    else
      var p := ps[0];
      assert InBounds(b, p);
      var b1 := if At(b, p) == Empty then Write(b, p, x) else b;
      assert forall q :: q in ps <==> q == p || q in ps[1..];
      var rest := Fill(b1, ps[1..], x);
      Pass(rest.board, At(b, p) == Empty || rest.changed)
  }

  /** Filling empty cells decides them, and changes the board exactly when one was found. */
  lemma FillDecides(b: Board, ps: seq<Pos>, x: Cell)
    requires AllIn(b, ps) && (x == Water || x == Clownfish)
    ensures Refines(b, Fill(b, ps, x).board)
    ensures Fill(b, ps, x).changed <==> Fill(b, ps, x).board != b
  {
    var f := Fill(b, ps, x);
    if !f.changed {
      BoardExt(b, f.board);
    }
  }

  /** Case 3's trigger: a coral cell with no clownfish beside it and exactly one
      empty cell beside it, which must therefore hold the coral's clownfish. */
  predicate Starved(b: Board, p: Pos)
    requires Rect(b) && InBounds(b, p)
  {
    var sur := Surrounding(b, p, false);
    At(b, p) == Coral && CountOfKind(b, sur, Clownfish) == 0 && CountOfKind(b, sur, Empty) == 1
  }

  /** The index of the first set flag, if any. */
  function FirstSet(flags: seq<bool>): (r: Option<nat>)
    ensures r.None? <==> forall i :: 0 <= i < |flags| ==> !flags[i]
    ensures r.Some? ==> r.value < |flags| && flags[r.value]
    ensures r.Some? ==> forall j :: 0 <= j < r.value ==> !flags[j]
    decreases |flags|
  {
    if |flags| == 0 then None
    else if flags[0] then Some(0)
    else
      match FirstSet(flags[1..])
      case None => None
      case Some(i) => Some(i + 1)
  }

  /** Case 3: the one empty neighbour of the first starved coral cell of `ps`. */
  function ForcedFish(b: Board, ps: seq<Pos>): (r: Option<Pos>)
    requires Rect(b) && AllIn(b, ps)
    ensures r.None? <==> forall i :: 0 <= i < |ps| ==> !Starved(b, ps[i])
    ensures r.Some? ==> exists i :: 0 <= i < |ps| && Starved(b, ps[i]) && r.value in Surrounding(b, ps[i], false) &&
                                    forall j :: 0 <= j < i ==> !Starved(b, ps[j])
    ensures r.Some? ==> InBounds(b, r.value) && At(b, r.value) == Empty
  {
    var starved := seq(|ps|, i requires 0 <= i < |ps| => Starved(b, ps[i]));
    assert forall i :: 0 <= i < |ps| ==> starved[i] == Starved(b, ps[i]);
    match FirstSet(starved)
    case None => None
    case Some(i) =>
      var sur := Surrounding(b, ps[i], false);
      CountZero(b, sur, Empty);
      var q := FirstOfKind(b, sur, Empty);
      assert q.Some? && q.value in sur;
      q
  }

  /** An empty cell with a clownfish among its eight neighbours must be water,
      since clownfish never touch, not even diagonally. */
  predicate TouchesFish(b: Board, p: Pos)
    requires Rect(b) && InBounds(b, p)
  {
    CountOfKind(b, Surrounding(b, p, true), Clownfish) > 0
  }

  /** The neighbourhood query finds a clownfish exactly when one sits on an
      adjacent puzzle cell. */
  lemma TouchesFishMeaning(b: Board, p: Pos)
    requires Rect(b) && IsPuzzle(b, p)
    ensures TouchesFish(b, p) <==> exists q :: IsPuzzle(b, q) && Adjacent(p, q) && At(b, q) == Clownfish
  {
    var s := Surrounding(b, p, true);
    CountZero(b, s, Clownfish);
    if TouchesFish(b, p) {
      var i :| 0 <= i < |s| && At(b, s[i]) == Clownfish;
      FishInSurrounding(b, p, s[i]);
    }
    if exists q :: IsPuzzle(b, q) && Adjacent(p, q) && At(b, q) == Clownfish {
      var q :| IsPuzzle(b, q) && Adjacent(p, q) && At(b, q) == Clownfish;
      FishInSurrounding(b, p, q);
      var i :| 0 <= i < |s| && s[i] == q;
    }
  }

  lemma FishInSurrounding(b: Board, p: Pos, q: Pos)
    requires Rect(b) && IsPuzzle(b, p)
    ensures q in Surrounding(b, p, true) <==> IsPuzzle(b, q) && Adjacent(p, q)
  {
    SurroundingMembers(b, p, true);
  }

  /** Turning an empty cell into water leaves every neighbourhood's clownfish as they were. */
  lemma TouchesFishWater(b: Board, p: Pos)
    requires Rect(b) && InBounds(b, p) && At(b, p) == Empty
    ensures Rect(Write(b, p, Water))
    ensures forall q :: InBounds(b, q) ==> TouchesFish(Write(b, p, Water), q) == TouchesFish(b, q)
  {
    var w := Write(b, p, Water);
    SameShapeRect(b, w);
    forall q | InBounds(b, q)
      ensures TouchesFish(w, q) == TouchesFish(b, q)
    {
      SurroundingShape(b, w, q, true);
      CountSameKindBoards(b, w, Surrounding(b, q, true), Clownfish);
    }
  }

  /** Case 4: every empty cell of `ps` touching a clownfish becomes water. */
  function ClearTouching(b: Board, ps: seq<Pos>): (res: Pass)
    requires Rect(b) && AllIn(b, ps)
    ensures SameShape(b, res.board)
    decreases |ps|
  {
    if |ps| == 0 then Pass(b, false)
    else
      var p := ps[0];
      assert InBounds(b, p);
      var hit := At(b, p) == Empty && TouchesFish(b, p);
      var b1 := if hit then Write(b, p, Water) else b;
      SameShapeRect(b, b1);
      var rest := ClearTouching(b1, ps[1..]);
      Pass(rest.board, hit || rest.changed)
  }

  /** One step of case 4 leaves every cell's contact with clownfish as it was. */
  lemma ClearStepTouches(b: Board, p: Pos, hit: bool, q: Pos)
    requires Rect(b) && InBounds(b, p) && InBounds(b, q)
    requires hit ==> At(b, p) == Empty
    ensures Rect(if hit then Write(b, p, Water) else b)
    ensures TouchesFish(if hit then Write(b, p, Water) else b, q) == TouchesFish(b, q)
  {
    if hit {
      TouchesFishWater(b, p);
    }
  }

  /** `b` is `a` with every empty cell of `ps` that touches a clownfish in `a` set to water. */
  ghost predicate ClearedAround(a: Board, b: Board, ps: seq<Pos>)
    requires Rect(a)
  {
    SameShape(a, b) &&
    forall q :: InBounds(a, q) ==>
      At(b, q) == if q in ps && At(a, q) == Empty && TouchesFish(a, q) then Water else At(a, q)
  }

  /** Case 4 acts as if all cells were examined at once: the water it writes never
      changes which cells touch a clownfish. */
  lemma {:induction false} ClearTouchingBoard(b: Board, ps: seq<Pos>)
    requires Rect(b) && AllIn(b, ps)
    ensures ClearedAround(b, ClearTouching(b, ps).board, ps)
    decreases |ps|
  {
    if |ps| > 0 {
      var p := ps[0];
      assert InBounds(b, p);
      var hit := At(b, p) == Empty && TouchesFish(b, p);
      var b1 := if hit then Write(b, p, Water) else b;
      SameShapeRect(b, b1);
      var tail := ps[1..];
      assert AllIn(b1, tail);
      ClearTouchingBoard(b1, tail);
      var res := ClearTouching(b1, tail).board;
      assert ClearTouching(b, ps).board == res;
      forall q | InBounds(b, q)
        ensures At(res, q) == if q in ps && At(b, q) == Empty && TouchesFish(b, q) then Water else At(b, q)
      {
        ClearStepTouches(b, p, hit, q);
        assert q in ps <==> q == p || q in tail;
      }
    }
  }

  /** Case 4 reports a change exactly when some empty cell of `ps` touches a clownfish. */
  lemma {:induction false} ClearTouchingChanged(b: Board, ps: seq<Pos>)
    requires Rect(b) && AllIn(b, ps)
    ensures ClearTouching(b, ps).changed <==> exists q :: q in ps && At(b, q) == Empty && TouchesFish(b, q)
    decreases |ps|
  {
    if |ps| > 0 {
      var p := ps[0];
      assert InBounds(b, p);
      var hit := At(b, p) == Empty && TouchesFish(b, p);
      var tail := ps[1..];
      if !hit {
        ClearTouchingChanged(b, tail);
        assert forall q :: q in ps <==> q == p || q in tail;
      } else {
        assert p in ps;
      }
    }
  }

  /** Case 4 decides empty cells, and changes the board exactly when it reports a change. */
  lemma ClearDecides(b: Board, ps: seq<Pos>)
    requires Rect(b) && AllIn(b, ps)
    ensures ClearedAround(b, ClearTouching(b, ps).board, ps)
    ensures Refines(b, ClearTouching(b, ps).board)
    ensures ClearTouching(b, ps).changed <==> ClearTouching(b, ps).board != b
  {
    ClearTouchingBoard(b, ps);
    ClearTouchingChanged(b, ps);
    var t := ClearTouching(b, ps);
    if !t.changed {
      BoardExt(b, t.board);
    } else {
      var q :| q in ps && At(b, q) == Empty && TouchesFish(b, q);
      assert At(t.board, q) != At(b, q);
    }
  }

  // ---------------------------------------------------------------------------
  // One row or column

  /** Case 1's trigger: the group already holds as many clownfish as its clue asks for. */
  predicate ClueMet(b: Board, g: seq<Pos>)
    requires AllIn(b, g) && |g| > 0
  {
    assert g[0] in g;
    At(b, g[0]).Constraint? && CountOfKind(b, g, Clownfish) == At(b, g[0]).value
  }

  /** Case 2's trigger: the clue needs every empty cell of the group to hold a clownfish. */
  predicate ClueForces(b: Board, g: seq<Pos>)
    requires AllIn(b, g) && |g| > 0
  {
    assert g[0] in g;
    At(b, g[0]).Constraint? &&
    CountOfKind(b, g, Empty) + CountOfKind(b, g, Clownfish) == At(b, g[0]).value
  }

  /** Applies the four deduction cases, in order, to the row or column `g`, whose
      first cell holds its clue. Only empty cells are ever rewritten, and the
      result reports a change exactly when the board changed. */
  function TrySolveGroup(b: Board, g: seq<Pos>): (res: GroupResult)
    requires Rect(b) && AllIn(b, g) && |g| > 0
    ensures Refines(b, res.board)
    ensures res.changed <==> res.board != b
  {
    if ClueMet(b, g) then
      FillDecides(b, g, Water);
      var f := Fill(b, g, Water);
      GroupResult(f.board, true, f.changed)
    else if ClueForces(b, g) then
      FillDecides(b, g, Clownfish);
      var f := Fill(b, g, Clownfish);
      GroupResult(f.board, true, f.changed)
    else
      match ForcedFish(b, g)
      case Some(q) =>
        WriteDecides(b, q, Clownfish);
        assert At(Write(b, q, Clownfish), q) != At(b, q);
        GroupResult(Write(b, q, Clownfish), false, true)
      case None =>
        ClearDecides(b, g);
        var t := ClearTouching(b, g);
        GroupResult(t.board, CountOfKind(t.board, g, Empty) == 0, t.changed)
  }

  /** What each case does to the group. */
  lemma TrySolveGroupCases(b: Board, g: seq<Pos>)
    requires Rect(b) && AllIn(b, g) && |g| > 0
    ensures ClueMet(b, g) ==>
      TrySolveGroup(b, g).solved && FilledWith(b, TrySolveGroup(b, g).board, g, Water)
    ensures !ClueMet(b, g) && ClueForces(b, g) ==>
      TrySolveGroup(b, g).solved && FilledWith(b, TrySolveGroup(b, g).board, g, Clownfish)
    ensures !ClueMet(b, g) && !ClueForces(b, g) && ForcedFish(b, g).Some? ==>
      TrySolveGroup(b, g) == GroupResult(Write(b, ForcedFish(b, g).value, Clownfish), false, true)
    ensures !ClueMet(b, g) && !ClueForces(b, g) && ForcedFish(b, g).None? ==>
      ClearedAround(b, TrySolveGroup(b, g).board, g) &&
      (TrySolveGroup(b, g).solved <==> forall q :: q in g ==> At(TrySolveGroup(b, g).board, q) != Empty)
  {
    if !ClueMet(b, g) && !ClueForces(b, g) && ForcedFish(b, g).None? {
      ClearDecides(b, g);
      var t := ClearTouching(b, g).board;
      SameShapeRect(b, t);
      CountZero(t, g, Empty);
      assert forall q :: q in g ==> exists i :: 0 <= i < |g| && g[i] == q;
    }
  }

  // ---------------------------------------------------------------------------
  // The fixed-point loop

  /** Groups the loop can hand to the group solver: non-empty runs of cells on the board. */
  ghost predicate ValidGroups(b: Board, gs: seq<seq<Pos>>) {
    forall i :: 0 <= i < |gs| ==> |gs[i]| > 0 && AllIn(b, gs[i])
  }

  /** The columns the loop visits, from column 1 (column 0 is skipped). */
  function Columns(b: Board): (gs: seq<seq<Pos>>)
    requires Rect(b)
    ensures |gs| == |b[0]| - 1 && ValidGroups(b, gs)
    ensures forall i :: 0 <= i < |gs| ==> gs[i] == ColumnGroup(b, i + 1)
  {
    seq(|b[0]| - 1, i requires 0 <= i < |b[0]| - 1 => ColumnGroup(b, i + 1))
  }

  /** The rows the loop visits, from row 0. */
  function Rows(b: Board): (gs: seq<seq<Pos>>)
    requires Rect(b)
    ensures |gs| == |b| && ValidGroups(b, gs)
    ensures forall i :: 0 <= i < |gs| ==> gs[i] == RowGroup(b, i)
  {
    seq(|b|, i requires 0 <= i < |b| => RowGroup(b, i))
  }

  /** The groups depend only on the board's shape. */
  lemma GroupListsShape(a: Board, b: Board)
    requires Rect(a) && SameShape(a, b)
    ensures Rect(b) && Columns(a) == Columns(b) && Rows(a) == Rows(b)
  {
    GroupsShape(a, b);
  }

  lemma ValidGroupsShape(a: Board, b: Board, gs: seq<seq<Pos>>)
    requires Rect(a) && SameShape(a, b) && ValidGroups(a, gs)
    ensures ValidGroups(b, gs)
  {
    SameShapeRect(a, b);
  }

  /** One pass of the group solver over `gs`, in order, each group seeing the
      board the previous ones left. */
  function SweepGroups(b: Board, gs: seq<seq<Pos>>): (res: Pass)
    requires Rect(b) && ValidGroups(b, gs)
    ensures Refines(b, res.board)
    ensures res.changed <==> res.board != b
    decreases |gs|
  {
    if gs == [] then Pass(b, false)
    else
      var g := TrySolveGroup(b, gs[0]);
      SameShapeRect(b, g.board);
      ValidGroupsShape(b, g.board, gs[1..]);
      var rest := SweepGroups(g.board, gs[1..]);
      RefinesChain(b, g.board, rest.board);
      Pass(rest.board, g.changed || rest.changed)
  }

  /** One round of the loop: every column from 1, then every row from 0. */
  function Sweep(b: Board): (res: Pass)
    requires Rect(b)
    ensures Refines(b, res.board)
    ensures res.changed <==> res.board != b
  {
    var cols := SweepGroups(b, Columns(b));
    SameShapeRect(b, cols.board);
    var rows := SweepGroups(cols.board, Rows(cols.board));
    RefinesChain(b, cols.board, rows.board);
    Pass(rows.board, cols.changed || rows.changed)
  }

  /** Repeats rounds until one changes nothing. Each changing round decides at
      least one empty cell, so the loop ends; it ends on a fixed point. */
  function Propagate(b: Board): (res: Board)
    requires Rect(b)
    ensures Refines(b, res)
    ensures !Sweep(res).changed
    decreases |EmptySet(b)|
  {
    var s := Sweep(b);
    if !s.changed then s.board
    else
      RefinesShrinks(b, s.board);
      SameShapeRect(b, s.board);
      var res := Propagate(s.board);
      RefinesTrans(b, s.board, res);
      res
  }

  /** The whole propagation engine: the one-off passes, then the loop. The
      result keeps every frozen cell, has no undecided cell the input lacked,
      satisfies the isolation rule and is a fixed point of the loop; `solved`
      is the solved check on it. */
  function TryLogicSolve(b: Board): (res: LogicResult)
    requires WellFormed(b)
    ensures KeepsFixed(b, res.board) && WellFormed(res.board)
    ensures EmptySet(res.board) <= EmptySet(b)
    ensures Isolated(res.board)
    ensures !Sweep(res.board).changed
    ensures res.solved <==> IsSolved(res.board)
    ensures ZeroLinesWater(b, res.board)
  {
    var pre := Preprocess(b);
    var p := Propagate(pre);
    ZeroLinesRefines(b, pre, p);
    RefinesKeepsFixed(pre, p);
    KeepsFixedTrans(b, pre, p);
    KeepsFixedWellFormed(b, p);
    RefinesShrinks(pre, p);
    IsolatedRefines(pre, p);
    LogicResult(p, IsSolved(p))
  }

  // ---------------------------------------------------------------------------
  // The solved check

  /** A row or column with no empty cell and exactly as many clownfish as its clue. */
  predicate GroupComplete(b: Board, g: seq<Pos>)
    requires AllIn(b, g) && |g| > 0
  {
    CountOfKind(b, g, Empty) == 0 && ClueMet(b, g)
  }

  /** The clownfish at (r, c), if there is one, has no clownfish on any of the
      eight puzzle cells around it. */
  predicate FishApart(b: Board, r: int, c: int)
    requires Rect(b) && 0 <= r < |b| && 0 <= c < |b[0]|
  {
    b[r][c] == Clownfish ==>
      forall i, j :: 1 <= i < |b| && 1 <= j < |b[0]| && Adjacent(Pos(r, c), Pos(i, j)) ==> b[i][j] != Clownfish
  }

  predicate RowsCompleteBelow(b: Board, n: int)
    requires Rect(b) && n <= |b|
  {
    forall r :: 1 <= r < n ==> GroupComplete(b, RowGroup(b, r))
  }

  predicate ColumnsCompleteBelow(b: Board, n: int)
    requires Rect(b) && n <= |b[0]|
  {
    forall c :: 1 <= c < n ==> GroupComplete(b, ColumnGroup(b, c))
  }

  predicate RowFishApart(b: Board, r: int)
    requires Rect(b) && 0 <= r < |b|
  {
    forall c :: 1 <= c < |b[0]| ==> FishApart(b, r, c)
  }

  predicate FishApartBelow(b: Board, n: int)
    requires Rect(b) && n <= |b|
  {
    forall r :: 1 <= r < n ==> RowFishApart(b, r)
  }

  /** The solved check: every puzzle row and column is complete, and no two
      clownfish touch, diagonals included. */
  predicate IsSolved(b: Board)
    requires Rect(b)
  {
    RowsCompleteBelow(b, |b|) && ColumnsCompleteBelow(b, |b[0]|) && FishApartBelow(b, |b|)
  }

  /** The solved check's neighbourhood query decides `FishApart`. */
  lemma FishApartQuery(b: Board, r: int, c: int)
    requires Rect(b) && 1 <= r < |b| && 1 <= c < |b[0]|
    ensures FishApart(b, r, c) <==>
      !(b[r][c] == Clownfish && FirstOfKind(b, Surrounding(b, Pos(r, c), true), Clownfish) != None)
  {
    var p := Pos(r, c);
    FirstOfKindCount(b, Surrounding(b, p, true), Clownfish);
    FishApartTouches(b, r, c);
  }

  lemma FishApartTouches(b: Board, r: int, c: int)
    requires Rect(b) && 1 <= r < |b| && 1 <= c < |b[0]|
    ensures FishApart(b, r, c) <==> !(b[r][c] == Clownfish && TouchesFish(b, Pos(r, c)))
  {
    var p := Pos(r, c);
    TouchesFishMeaning(b, p);
    if b[r][c] == Clownfish && TouchesFish(b, p) {
      var q :| IsPuzzle(b, q) && Adjacent(p, q) && At(b, q) == Clownfish;
      assert b[q.r][q.c] == Clownfish;
    }
    if !FishApart(b, r, c) {
      var i, j :| 1 <= i < |b| && 1 <= j < |b[0]| && Adjacent(p, Pos(i, j)) && b[i][j] == Clownfish;
      assert IsPuzzle(b, Pos(i, j)) && At(b, Pos(i, j)) == Clownfish;
    }
  }

  /** The solved check as the solver runs it: rows, then columns, then every
      clownfish's neighbourhood. */
  method CheckSolved(b: Board) returns (solved: bool)
    requires Rect(b)
    ensures solved <==> IsSolved(b)
  {
    solved := CheckRows(b);
    var colsOk := CheckColumns(b);
    solved := solved && colsOk;
    var apart := CheckFishApart(b);
    solved := solved && apart;
  }

  /** The row scan, which stops at the first incomplete row. */
  method CheckRows(b: Board) returns (ok: bool)
    requires Rect(b)
    ensures ok <==> RowsCompleteBelow(b, |b|)
  {
    ok := true;
    var r := 1;
    while r < |b|
      invariant 1 <= r <= |b|
      invariant RowsCompleteBelow(b, r)
    {
      var row := RowGroup(b, r);
      if CountOfKind(b, row, Empty) > 0 || !ClueMet(b, row) {
        return false;
      }
      r := r + 1;
    }
  }

  /** The column scan, which stops at the first incomplete column. */
  method CheckColumns(b: Board) returns (ok: bool)
    requires Rect(b)
    ensures ok <==> ColumnsCompleteBelow(b, |b[0]|)
  {
    ok := true;
    var c := 1;
    while c < |b[0]|
      invariant 1 <= c <= |b[0]|
      invariant ColumnsCompleteBelow(b, c)
    {
      var col := ColumnGroup(b, c);
      if CountOfKind(b, col, Empty) > 0 || !ClueMet(b, col) {
        return false;
      }
      c := c + 1;
    }
  }

  /** The neighbourhood scan over every clownfish of rows 1 onwards. */
  method CheckFishApart(b: Board) returns (ok: bool)
    requires Rect(b)
    ensures ok <==> FishApartBelow(b, |b|)
  {
    ok := true;
    var r := 1;
    while r < |b|
      invariant 1 <= r <= |b|
      invariant ok <==> FishApartBelow(b, r)
    {
      var rowOk := CheckRowFishApart(b, r);
      ok := ok && rowOk;
      r := r + 1;
    }
  }

  /** The neighbourhood scan over one row, which stops at the first clownfish
      that touches another. */
  method CheckRowFishApart(b: Board, r: int) returns (ok: bool)
    requires Rect(b) && 1 <= r < |b|
    ensures ok <==> RowFishApart(b, r)
  {
    var c := 1;
    while c < |b[0]|
      invariant 1 <= c <= |b[0]|
      invariant forall k :: 1 <= k < c ==> FishApart(b, r, k)
    {
      FishApartQuery(b, r, c);
      if b[r][c] == Clownfish && FirstOfKind(b, Surrounding(b, Pos(r, c), true), Clownfish) != None {
        return false;
      }
      c := c + 1;
    }
    return true;
  }
}

=== FILE: search.dfy ===
/** The backtracking solver: propagate, and when propagation stalls guess the
    first empty cell, water before clownfish. */
module Search {
  import opened Grid
  import opened Groups
  import opened Propagation
  import opened Soundness

  /** A cell after the reset: coral and constraint cells stay, every other cell
      is cleared, whatever the player put there. */
  function ResetCell(x: Cell): Cell {
    if IsFixed(x) then x else Empty
  }

  function Reset(b: Board): (r: Board)
    ensures SameShape(b, r)
    ensures forall p :: InBounds(b, p) ==> At(r, p) == ResetCell(At(b, p))
  {
    seq(|b|, i requires 0 <= i < |b| => seq(|b[i]|, j requires 0 <= j < |b[i]| => ResetCell(b[i][j])))
  }

  /** The reset keeps every frozen cell and leaves nothing else decided, so a
      second reset changes nothing. */
  lemma ResetMeaning(b: Board)
    ensures KeepsFixed(b, Reset(b))
    ensures forall p :: InBounds(b, p) && !IsFixed(At(b, p)) ==> At(Reset(b), p) == Empty
    ensures Reset(Reset(b)) == Reset(b)
  {
    var r := Reset(b);
    BoardExt(Reset(r), r);
  }

  /** Every finished board with the same frozen cells refines the reset board:
      the reset forgets exactly the player's moves. */
  lemma ResetRefines(b: Board, t: Board)
    requires KeepsFixed(b, t)
    requires forall p :: InBounds(t, p) && !IsFixed(At(t, p)) ==> At(t, p) == Water || At(t, p) == Clownfish
    ensures Refines(Reset(b), t)
  {
    forall p | InBounds(Reset(b), p)
      ensures Resolves(At(Reset(b), p), At(t, p))
    {
      assert InBounds(b, p) && InBounds(t, p);
    }
  }

  /** The guess made at `p`, with its well-formedness and the shrinking of the
      undecided cells that ends the recursion. */
  lemma GuessStep(b: Board, l: Board, p: Pos, x: Cell)
    requires WellFormed(b) && KeepsFixed(b, l) && WellFormed(l) && EmptySet(l) <= EmptySet(b)
    requires InBounds(l, p) && At(l, p) == Empty && (x == Water || x == Clownfish)
    ensures WellFormed(Write(l, p, x)) && KeepsFixed(b, Write(l, p, x))
    ensures |EmptySet(Write(l, p, x))| < |EmptySet(b)|
  {
    var w := Write(l, p, x);
    WriteDecides(l, p, x);
    RefinesKeepsFixed(l, w);
    KeepsFixedTrans(b, l, w);
    KeepsFixedWellFormed(l, w);
    EmptySetMember(l, p);
    SubsetSmaller(p, EmptySet(w), EmptySet(b));
  }

  /** A finished board with the same frozen cells as a well-formed board. */
  ghost predicate Completes(b: Board, r: Board) {
    WellFormed(r) && KeepsFixed(b, r) && IsSolved(r) && FishByCoral(r)
  }

  /** Propagation from `b`; when that does not pass the solved check, the first
      empty cell is guessed water and, if that leads nowhere, clownfish. `None`
      is the source's null: no completion was found. Any result passes the
      solved check, keeps the frozen cells of `b` and puts every clownfish
      beside coral. */
  function SolveFrom(b: Board): (r: Option<Board>)
    requires WellFormed(b)
    ensures r.Some? ==> Completes(b, r.value)
    decreases |EmptySet(b)|
  {
    var res := TryLogicSolve(b);
    var l := res.board;
    if res.solved then
      LogicFishByCoral(l);
      Some(l)
    else
      match FirstEmpty(l)
      case None => None
      case Some(p) =>
        GuessStep(b, l, p, Water);
        GuessStep(b, l, p, Clownfish);
        var water := SolveFrom(Write(l, p, Water));
        var r := if water.Some? then water else SolveFrom(Write(l, p, Clownfish));
        if r.Some? then
          KeepsFixedTrans(b, Write(l, p, if water.Some? then Water else Clownfish), r.value);
          r
        else r
  }

  /** After the isolation pass every clownfish is beside coral. */
  lemma LogicFishByCoral(b: Board)
    requires Rect(b) && Isolated(b)
    ensures FishByCoral(b)
  {
  }

  /** The entry point: solve `b`, clearing the player's moves first when asked. */
  function Solve(b: Board, resetFirst: bool): (r: Option<Board>)
    requires WellFormed(b)
    ensures r.Some? ==> Completes(b, r.value)
  {
    var start := if resetFirst then Reset(b) else b;
    ResetMeaning(b);
    KeepsFixedWellFormed(b, start);
    var r := SolveFrom(start);
    if r.Some? then KeepsFixedTrans(b, start, r.value); r else r
  }

  // ---------------------------------------------------------------------------
  // Completeness and idempotence

  /** The solver finds a completion whenever a solution of the puzzle is still
      reachable from the board. */
  lemma {:induction false} SolveFromComplete(b: Board, s: Board)
    requires PuzzleSolution(s) && Refines(b, s)
    ensures WellFormed(b) && SolveFrom(b).Some?
    decreases |EmptySet(b)|
  {
    TryLogicSolveSound(b, s);
    var l := TryLogicSolve(b).board;
    if !TryLogicSolve(b).solved {
      if FirstEmpty(l).None? {
        RefinesComplete(l, s);
        assert false;
      }
      var p := FirstEmpty(l).value;
      GuessOnSolution(l, p, s);
      GuessStep(b, l, p, At(s, p));
      WriteTowards(l, p, s);
      SolveFromComplete(Write(l, p, At(s, p)), s);
      GuessComplete(b, p, At(s, p));
    }
  }

  /** A cell still empty after propagation is a puzzle cell beside coral whose
      row and column clues are not 0. */
  lemma GuessSafe(b: Board, p: Pos)
    requires WellFormed(b)
    requires InBounds(TryLogicSolve(b).board, p) && At(TryLogicSolve(b).board, p) == Empty
    ensures IsPuzzle(b, p) && BordersCoral(TryLogicSolve(b).board, p)
    ensures !IsZeroClue(b[p.r][0]) && !IsZeroClue(b[0][p.c])
  {
    var l := TryLogicSolve(b).board;
    RefinesShrinks(Preprocess(b), l);
    EmptySetMember(l, p);
    EmptySetMember(Preprocess(b), p);
    PreprocessEmpty(b, p);
  }

  /** The one-off passes that run again after a guess keep the guessed cell:
      they rewrite only cells of zero-clue lines and cells away from coral. */
  lemma GuessKept(b: Board, p: Pos, x: Cell)
    requires WellFormed(b)
    requires InBounds(TryLogicSolve(b).board, p) && At(TryLogicSolve(b).board, p) == Empty
    requires x == Water || x == Clownfish
    ensures WellFormed(Write(TryLogicSolve(b).board, p, x))
    ensures At(Preprocess(Write(TryLogicSolve(b).board, p, x)), p) == x
  {
    var l := TryLogicSolve(b).board;
    GuessSafe(b, p);
    ClueKept(b, l, p);
    WriteKept(l, p, x);
  }

  /** A board that keeps the frozen cells of `b` has the same clues. */
  lemma ClueKept(b: Board, l: Board, p: Pos)
    requires WellFormed(b) && KeepsFixed(b, l) && IsPuzzle(b, p)
    ensures l[p.r][0] == b[p.r][0] && l[0][p.c] == b[0][p.c]
  {
    assert InBounds(b, Pos(p.r, 0)) && InBounds(b, Pos(0, p.c));
  }

  /** A decision written on a puzzle cell beside coral in no zero-clue line
      survives the one-off passes. */
  lemma WriteKept(l: Board, p: Pos, x: Cell)
    requires WellFormed(l) && IsPuzzle(l, p) && At(l, p) == Empty && BordersCoral(l, p)
    requires !IsZeroClue(l[p.r][0]) && !IsZeroClue(l[0][p.c])
    requires x == Water || x == Clownfish
    ensures WellFormed(Write(l, p, x))
    ensures At(Preprocess(Write(l, p, x)), p) == x
  {
    var w := Write(l, p, x);
    WriteDecides(l, p, x);
    RefinesKeepsFixed(l, w);
    KeepsFixedWellFormed(l, w);
    SameCoralBorders(l, w);
    assert InBounds(l, Pos(p.r, 0)) && InBounds(l, Pos(0, p.c));
    PassesKeep(w, p);
  }

  /** A cell the one-off passes leave empty is a puzzle cell in no row or
      column whose clue is 0. */
  lemma PreprocessEmpty(b: Board, p: Pos)
    requires WellFormed(b) && InBounds(b, p) && At(Preprocess(b), p) == Empty
    ensures IsPuzzle(b, p) && !IsZeroClue(b[p.r][0]) && !IsZeroClue(b[0][p.c])
  {
    var z1 := ZeroRowsFrom(b, 0);
    ZeroRowsStep(b);
    WaterStepKeepsFixed(b, z1);
    var z2 := ZeroColumnsFrom(z1, 0);
    ZeroColumnsStep(z1);
    WaterStepKeepsFixed(z1, z2);
    var pre := IsolateColumnsFrom(z2, 1);
    IsolationStep(z2);
    WaterStepKeepsFixed(z2, pre);
    EmptySetMember(pre, p);
    EmptySetMember(z2, p);
    EmptySetMember(z1, p);
    assert InBounds(b, Pos(0, 0)) && InBounds(b, Pos(p.r, 0)) && InBounds(b, Pos(0, p.c));
  }

  /** A guess that leads to a completion makes the solver succeed. */
  lemma GuessComplete(b: Board, p: Pos, x: Cell)
    requires WellFormed(b) && !TryLogicSolve(b).solved && FirstEmpty(TryLogicSolve(b).board) == Some(p)
    requires x == Water || x == Clownfish
    requires WellFormed(Write(TryLogicSolve(b).board, p, x))
    requires SolveFrom(Write(TryLogicSolve(b).board, p, x)).Some?
    ensures SolveFrom(b).Some?
  {
    var l := TryLogicSolve(b).board;
    GuessStep(b, l, p, Water);
    GuessStep(b, l, p, Clownfish);
    SolveFromGuess(b, p);
  }

  /** When propagation stalls, the answer is the water guess's if it has one,
      otherwise the clownfish guess's. */
  lemma SolveFromGuess(b: Board, p: Pos)
    requires WellFormed(b) && !TryLogicSolve(b).solved && FirstEmpty(TryLogicSolve(b).board) == Some(p)
    requires WellFormed(Write(TryLogicSolve(b).board, p, Water))
    requires WellFormed(Write(TryLogicSolve(b).board, p, Clownfish))
    ensures SolveFrom(b) == if SolveFrom(Write(TryLogicSolve(b).board, p, Water)).Some?
                            then SolveFrom(Write(TryLogicSolve(b).board, p, Water))
                            else SolveFrom(Write(TryLogicSolve(b).board, p, Clownfish))
  {
  }

  /** An empty cell of a board on the way to a solution is decided in it. */
  lemma GuessOnSolution(l: Board, p: Pos, s: Board)
    requires PuzzleSolution(s) && Refines(l, s) && InBounds(l, p) && At(l, p) == Empty
    ensures At(s, p) == Water || At(s, p) == Clownfish
  {
    RefinesWellFormed(l, s);
    assert IsPuzzle(s, p);
    SolutionCell(s, p);
  }

  /** Propagation that neither solves the board nor leaves an empty cell to
      guess on means no answer. */
  lemma SolveFromStuck(b: Board)
    requires WellFormed(b) && !TryLogicSolve(b).solved && EmptySet(TryLogicSolve(b).board) == {}
    ensures SolveFrom(b) == None
  {
  }

  /** When the solver reports no completion, no solution refines the board. */
  lemma SolveFromNone(b: Board, s: Board)
    requires WellFormed(b) && SolveFrom(b).None? && PuzzleSolution(s)
    ensures !Refines(b, s)
  {
    if Refines(b, s) {
      SolveFromComplete(b, s);
    }
  }

  /** A board that passes the solved check with every clownfish beside coral
      is its own answer: the one-off passes find nothing to rewrite and the
      loop nothing to decide. */
  lemma SolveFromSolution(s: Board)
    requires WellFormed(s) && IsSolved(s) && FishByCoral(s)
    ensures SolveFrom(s) == Some(s)
  {
    SolutionNoEmpty(s);
    RefinesRefl(s);
    PreprocessSound(s, s);
    RefinesComplete(Preprocess(s), s);
    RefinesComplete(s, Propagate(s));
  }

  /** The boards the solver returns unchanged are exactly the boards that pass
      the solved check with every clownfish beside coral. */
  lemma SolveFromFixedPoint(s: Board)
    requires WellFormed(s)
    ensures SolveFrom(s) == Some(s) <==> IsSolved(s) && FishByCoral(s)
  {
    if IsSolved(s) && FishByCoral(s) {
      SolveFromSolution(s);
    }
  }

  /** Solving such a board without the reset returns it unchanged. */
  lemma SolveSolution(s: Board)
    requires WellFormed(s) && IsSolved(s) && FishByCoral(s)
    ensures Solve(s, false) == Some(s)
  {
    SolveFromSolution(s);
  }

  /** A board passing the solved check has no empty cell anywhere, the border
      included. */
  lemma SolutionNoEmpty(s: Board)
    requires WellFormed(s) && IsSolved(s)
    ensures EmptySet(s) == {}
  {
    SolutionFinished(s);
    forall p | InBounds(s, p)
      ensures At(s, p) != Empty
    {
      if !IsPuzzle(s, p) {
        assert At(s, p).Constraint?;
      }
    }
    NoEmptyCells(s);
  }

  /** After the reset, the answer decides every cell the player may play and
      keeps the puzzle's coral and clues: it refines the reset board. */
  lemma SolveResetRefines(b: Board)
    requires WellFormed(b) && Solve(b, true).Some?
    ensures Refines(Reset(b), Solve(b, true).value)
  {
    var r := Solve(b, true).value;
    forall p | InBounds(r, p) && !IsFixed(At(r, p))
      ensures At(r, p) == Water || At(r, p) == Clownfish
    {
      SolvedCell(r, p);
    }
    ResetRefines(b, r);
  }

  /** A board passing the solved check has only decided or frozen cells. */
  lemma SolvedCell(r: Board, p: Pos)
    requires WellFormed(r) && IsSolved(r) && InBounds(r, p) && !IsFixed(At(r, p))
    ensures At(r, p) == Water || At(r, p) == Clownfish
  {
    var g := RowGroup(r, p.r);
    assert GroupComplete(r, g);
    CountZeroMember(r, g, Empty, p);
  }

  /** With the reset, a solution of the puzzle the board shows is always found. */
  lemma SolveComplete(b: Board, s: Board)
    requires WellFormed(b) && PuzzleSolution(s) && KeepsFixed(b, s)
    ensures Solve(b, true).Some?
  {
    SolutionNoEmpty(s);
    forall p | InBounds(s, p) && !IsFixed(At(s, p))
      ensures At(s, p) == Water || At(s, p) == Clownfish
    {
      NoEmptyCells(s);
      SolvedCell(s, p);
    }
    ResetRefines(b, s);
    SolveFromComplete(Reset(b), s);
  }
}

=== FILE: soundness.dfy ===
/** Propagation never rules out a solution. If a board can still be completed
    to a solution of the puzzle, every deduction of the engine agrees with that
    solution: the engine only ever moves towards it. */
module Soundness {
  import opened Grid
  import opened Groups
  import opened Propagation

  /** `s` places a clownfish directly beside the coral cell `p`. */
  ghost predicate CoralFed(s: Board, p: Pos) {
    exists q :: IsPuzzle(s, q) && Orthogonal(p, q) && At(s, q) == Clownfish
  }

  /** A finished board that obeys every rule the engine reasons with: the solved
      check, every clownfish beside coral (the isolation pass) and every coral
      beside a clownfish (deduction case 3). */
  ghost predicate PuzzleSolution(s: Board) {
    WellFormed(s) && IsSolved(s) && FishByCoral(s) && CoralsFed(s)
  }

  ghost predicate FishByCoral(s: Board)
    requires Rect(s)
  {
    forall p :: IsPuzzle(s, p) && At(s, p) == Clownfish ==> BordersCoral(s, p)
  }

  ghost predicate CoralsFed(s: Board) {
    forall p :: IsPuzzle(s, p) && At(s, p) == Coral ==> CoralFed(s, p)
  }

  /** A board that refines to a well-formed board is itself well-formed. */
  lemma RefinesWellFormed(b: Board, s: Board)
    requires WellFormed(s) && Refines(b, s)
    ensures WellFormed(b)
  {
    SameShapeRect(s, b);
    forall p | InBounds(b, p)
      ensures At(b, p).Constraint? <==> p.r == 0 || p.c == 0
    {
      assert InBounds(s, p);
    }
    assert InBounds(s, Pos(0, 0));
  }

  /** Every puzzle cell of a board passing the solved check is decided. */
  lemma SolutionCell(s: Board, q: Pos)
    requires WellFormed(s) && IsSolved(s) && IsPuzzle(s, q)
    ensures At(s, q) == Water || At(s, q) == Clownfish || At(s, q) == Coral
  {
    var g := RowGroup(s, q.r);
    assert GroupComplete(s, g);
    CountZeroMember(s, g, Empty, q);
  }

  /** No puzzle cell is left undecided. */
  ghost predicate Finished(s: Board) {
    forall q :: IsPuzzle(s, q) ==> At(s, q) != Empty
  }

  lemma SolutionFinished(s: Board)
    requires WellFormed(s) && IsSolved(s)
    ensures Finished(s)
  {
    forall q | IsPuzzle(s, q)
      ensures At(s, q) != Empty
    {
      SolutionCell(s, q);
    }
  }

  /** In a board passing the solved check, every non-coral cell of a row or
      column with clue 0 is water. */
  lemma ZeroClueWater(s: Board, q: Pos, g: seq<Pos>)
    requires WellFormed(s) && IsSolved(s) && IsPuzzle(s, q) && At(s, q) != Coral
    requires AllIn(s, g) && |g| > 0 && GroupComplete(s, g) && q in g && At(s, g[0]) == Constraint(0)
    ensures At(s, q) == Water
  {
    CountZeroMember(s, g, Clownfish, q);
    SolutionCell(s, q);
  }

  lemma ZeroRowsSound(b: Board, s: Board)
    requires WellFormed(s) && IsSolved(s) && WellFormed(b) && Refines(b, s)
    ensures Refines(ZeroRowsFrom(b, 0), s)
  {
    var z := ZeroRowsFrom(b, 0);
    forall q | InBounds(b, q)
      ensures Resolves(At(z, q), At(s, q))
    {
      if q.c >= 1 && IsZeroClue(b[q.r][0]) && At(b, q) != Coral {
        assert InBounds(b, Pos(q.r, 0)) && InBounds(b, Pos(0, 0));
        assert InBounds(s, Pos(q.r, 0));
        ZeroClueWater(s, q, RowGroup(s, q.r));
      }
    }
  }

  lemma ZeroColumnsSound(b: Board, s: Board)
    requires WellFormed(s) && IsSolved(s) && WellFormed(b) && Refines(b, s)
    ensures Refines(ZeroColumnsFrom(b, 0), s)
  {
    var z := ZeroColumnsFrom(b, 0);
    forall q | InBounds(b, q)
      ensures Resolves(At(z, q), At(s, q))
    {
      if q.r >= 1 && IsZeroClue(b[0][q.c]) && At(b, q) != Coral {
        assert InBounds(b, Pos(0, q.c)) && InBounds(b, Pos(0, 0));
        assert InBounds(s, Pos(0, q.c));
        ZeroClueWater(s, q, ColumnGroup(s, q.c));
      }
    }
  }

  lemma IsolationSound(b: Board, s: Board)
    requires WellFormed(s) && IsSolved(s) && FishByCoral(s) && WellFormed(b) && Refines(b, s)
    ensures Refines(IsolateColumnsFrom(b, 1), s)
  {
    SolutionIsolated(s);
    IsolationTowards(b, s);
  }

  /** A board passing the solved check with every clownfish beside coral
      satisfies the isolation rule. */
  lemma SolutionIsolated(s: Board)
    requires WellFormed(s) && IsSolved(s) && FishByCoral(s)
    ensures Isolated(s)
  {
    forall q | IsPuzzle(s, q) && At(s, q) != Coral && !BordersCoral(s, q)
      ensures At(s, q) == Water
    {
      SolutionCell(s, q);
    }
  }

  /** The isolation pass agrees with every isolated refinement. */
  lemma IsolationTowards(b: Board, s: Board)
    requires WellFormed(b) && Refines(b, s) && Isolated(s)
    ensures Refines(IsolateColumnsFrom(b, 1), s)
  {
    var z := IsolateColumnsFrom(b, 1);
    SameCoralBorders(b, s);
    forall q | InBounds(b, q)
      ensures Resolves(At(z, q), At(s, q))
    {
      if q.c >= 1 && q.r >= 1 && At(b, q) != Coral && !BordersCoral(b, q) {
        assert IsPuzzle(s, q);
      }
    }
  }

  /** The one-off passes agree with every board the board can still reach that
      passes the solved check with every clownfish beside coral, a puzzle
      solution in particular. */
  lemma PreprocessSound(b: Board, s: Board)
    requires WellFormed(s) && IsSolved(s) && FishByCoral(s) && WellFormed(b) && Refines(b, s)
    ensures Refines(Preprocess(b), s)
  {
    var z1 := ZeroRowsFrom(b, 0);
    ZeroRowsSound(b, s);
    RefinesWellFormed(z1, s);
    var z2 := ZeroColumnsFrom(z1, 0);
    ZeroColumnsSound(z1, s);
    RefinesWellFormed(z2, s);
    IsolationSound(z2, s);
  }

  // ---------------------------------------------------------------------------
  // The four deduction cases

  /** What one row or column of a solution offers the group solver: either the
      group is complete in the solution, or it has no empty cell to decide
      (row 0, which holds only constraint cells). */
  ghost predicate GroupSettled(s: Board, g: seq<Pos>)
    requires AllIn(s, g) && |g| > 0
  {
    GroupComplete(s, g) || forall q :: q in g ==> At(s, q).Constraint?
  }

  /** In a settled group, a cell the board leaves empty lies in a group the solution completes. */
  lemma SettledEmpty(b: Board, g: seq<Pos>, s: Board, q: Pos)
    requires Refines(b, s) && AllIn(b, g) && AllIn(s, g) && |g| > 0 && GroupSettled(s, g)
    requires q in g && At(b, q) == Empty
    ensures GroupComplete(s, g) && At(s, q) != Empty
  {
    CountZeroMember(s, g, Empty, q);
  }

  /** Case 1: when the clue is met, the solution has no further clownfish in the group. */
  lemma ClueMetSound(b: Board, g: seq<Pos>, s: Board)
    requires Rect(b) && Refines(b, s)
    requires AllIn(b, g) && AllIn(s, g) && |g| > 0 && GroupSettled(s, g) && ClueMet(b, g)
    ensures Refines(Fill(b, g, Water).board, s)
  {
    var f := Fill(b, g, Water).board;
    assert g[0] in g && InBounds(b, g[0]);
    forall q | InBounds(b, q)
      ensures Resolves(At(f, q), At(s, q))
    {
      if q in g && At(b, q) == Empty {
        SettledEmpty(b, g, s, q);
        if At(s, q) == Clownfish {
          var j :| 0 <= j < |g| && g[j] == q;
          CountGrowsStrictly(b, s, g, Clownfish, j);
          assert false;
        }
      }
    }
  }

  /** Case 2: when the clue needs every empty cell, the solution fills them all. */
  lemma ClueForcesSound(b: Board, g: seq<Pos>, s: Board)
    requires Rect(b) && Refines(b, s)
    requires AllIn(b, g) && AllIn(s, g) && |g| > 0 && GroupSettled(s, g) && ClueForces(b, g)
    ensures Refines(Fill(b, g, Clownfish).board, s)
  {
    var f := Fill(b, g, Clownfish).board;
    assert g[0] in g && InBounds(b, g[0]);
    forall q | InBounds(b, q)
      ensures Resolves(At(f, q), At(s, q))
    {
      if q in g && At(b, q) == Empty {
        SettledEmpty(b, g, s, q);
        if At(s, q) != Clownfish {
          var j :| 0 <= j < |g| && g[j] == q;
          CountCoveredStrictly(b, s, g, Clownfish, Empty, Clownfish, j);
          assert false;
        }
      }
    }
  }

  /** Case 3: the only empty cell beside a starved coral holds its clownfish in the solution. */
  lemma ForcedFishSound(b: Board, g: seq<Pos>, s: Board)
    requires WellFormed(s) && CoralsFed(s) && Rect(b) && Refines(b, s)
    requires AllIn(b, g) && ForcedFish(b, g).Some?
    ensures Refines(Write(b, ForcedFish(b, g).value, Clownfish), s)
  {
    var q := ForcedFish(b, g).value;
    var i :| 0 <= i < |g| && Starved(b, g[i]) && q in Surrounding(b, g[i], false);
    assert g[i] in g;
    StarvedNeighbourSound(b, g[i], q, s);
    WriteTowards(b, q, s);
  }

  /** The only empty cell beside a coral cell without a clownfish is where the
      solution puts that coral's clownfish. */
  lemma StarvedNeighbourSound(b: Board, p: Pos, q: Pos, s: Board)
    requires WellFormed(s) && CoralsFed(s) && Rect(b) && Refines(b, s)
    requires InBounds(b, p) && Starved(b, p) && q in Surrounding(b, p, false) && At(b, q) == Empty
    ensures At(s, q) == Clownfish
  {
    var sur := Surrounding(b, p, false);
    assert InBounds(s, p) && IsPuzzle(s, p);
    assert CoralFed(s, p);
    var f :| IsPuzzle(s, f) && Orthogonal(p, f) && At(s, f) == Clownfish;
    FishInOrthogonal(b, p, f);
    if At(b, f) == Clownfish {
      CountZeroMember(b, sur, Clownfish, f);
    }
    if f != q {
      var i1 :| 0 <= i1 < |sur| && sur[i1] == f;
      var i2 :| 0 <= i2 < |sur| && sur[i2] == q;
      CountTwo(b, sur, Empty, i1, i2);
    }
  }

  lemma FishInOrthogonal(b: Board, p: Pos, f: Pos)
    requires Rect(b) && IsPuzzle(b, p) && IsPuzzle(b, f) && Orthogonal(p, f)
    ensures f in Surrounding(b, p, false)
  {
    SurroundingMembers(b, p, false);
  }

  /** Writing at an empty cell the value a refinement holds there keeps the refinement. */
  lemma WriteTowards(b: Board, q: Pos, s: Board)
    requires Refines(b, s) && InBounds(b, q) && At(b, q) == Empty && (At(s, q) == Water || At(s, q) == Clownfish)
    ensures Refines(Write(b, q, At(s, q)), s)
  {
    var w := Write(b, q, At(s, q));
    forall x | InBounds(w, x)
      ensures Resolves(At(w, x), At(s, x))
    {
      assert InBounds(b, x);
    }
  }

  /** Case 4: an empty cell beside a clownfish is water in the solution. */
  lemma ClearSound(b: Board, g: seq<Pos>, s: Board)
    requires Rect(s) && Finished(s) && FishApartBelow(s, |s|) && WellFormed(b) && Refines(b, s)
    requires AllIn(b, g)
    ensures Refines(ClearTouching(b, g).board, s)
  {
    var t := ClearTouching(b, g).board;
    ClearTouchingBoard(b, g);
    forall q | InBounds(b, q)
      ensures Resolves(At(t, q), At(s, q))
    {
      if q in g && At(b, q) == Empty && TouchesFish(b, q) {
        TouchingSound(b, s, q);
      }
    }
  }

  lemma TouchingSound(b: Board, s: Board, q: Pos)
    requires Rect(s) && Finished(s) && FishApartBelow(s, |s|) && WellFormed(b) && Refines(b, s)
    requires InBounds(b, q) && At(b, q) == Empty && TouchesFish(b, q)
    ensures At(s, q) == Water
  {
    assert IsPuzzle(b, q);
    TouchesFishMeaning(b, q);
    var f :| IsPuzzle(b, f) && Adjacent(q, f) && At(b, f) == Clownfish;
    assert At(s, f) == Clownfish;
    assert RowFishApart(s, q.r);
    assert FishApart(s, q.r, q.c);
  }

  /** The group solver agrees with every solution the board can still reach. */
  lemma TrySolveGroupSound(b: Board, g: seq<Pos>, s: Board)
    requires PuzzleSolution(s) && WellFormed(b) && Refines(b, s)
    requires AllIn(b, g) && AllIn(s, g) && |g| > 0 && GroupSettled(s, g)
    ensures Refines(TrySolveGroup(b, g).board, s)
  {
    if ClueMet(b, g) {
      ClueMetSound(b, g, s);
    } else if ClueForces(b, g) {
      ClueForcesSound(b, g, s);
    } else if ForcedFish(b, g).Some? {
      ForcedFishSound(b, g, s);
    } else {
      SolutionFinished(s);
      ClearSound(b, g, s);
    }
  }

  // ---------------------------------------------------------------------------
  // The loop

  /** Every group a sweep visits is settled in the solution. */
  ghost predicate AllSettled(s: Board, gs: seq<seq<Pos>>)
    requires ValidGroups(s, gs)
  {
    forall i :: 0 <= i < |gs| ==> GroupSettled(s, gs[i])
  }

  /** One step of a sweep, unfolded. */
  lemma SweepGroupsStep(b: Board, gs: seq<seq<Pos>>)
    requires Rect(b) && ValidGroups(b, gs) && gs != []
    ensures Rect(TrySolveGroup(b, gs[0]).board)
    ensures ValidGroups(TrySolveGroup(b, gs[0]).board, gs[1..])
    ensures SweepGroups(b, gs).board == SweepGroups(TrySolveGroup(b, gs[0]).board, gs[1..]).board
  {
    SameShapeRect(b, TrySolveGroup(b, gs[0]).board);
    ValidGroupsShape(b, TrySolveGroup(b, gs[0]).board, gs[1..]);
  }

  /** Solving one settled group keeps the board well-formed and on the way to the solution. */
  lemma GroupStepSound(b: Board, g: seq<Pos>, s: Board)
    requires PuzzleSolution(s) && WellFormed(b) && Refines(b, s)
    requires AllIn(b, g) && AllIn(s, g) && |g| > 0 && GroupSettled(s, g)
    ensures WellFormed(TrySolveGroup(b, g).board)
    ensures Refines(TrySolveGroup(b, g).board, s)
  {
    TrySolveGroupSound(b, g, s);
    RefinesWellFormed(TrySolveGroup(b, g).board, s);
  }

  lemma {:induction false} SweepGroupsSound(b: Board, gs: seq<seq<Pos>>, s: Board)
    requires PuzzleSolution(s) && WellFormed(b) && Refines(b, s)
    requires ValidGroups(b, gs) && ValidGroups(s, gs) && AllSettled(s, gs)
    ensures Refines(SweepGroups(b, gs).board, s)
    decreases |gs|
  {
    if gs != [] {
      GroupStepSound(b, gs[0], s);
      SweepGroupsStep(b, gs);
      SweepGroupsSound(TrySolveGroup(b, gs[0]).board, gs[1..], s);
    }
  }

  /** Every column from 1 and every row from 0 is settled in a solution. */
  lemma SolutionSettled(s: Board)
    requires PuzzleSolution(s)
    ensures AllSettled(s, Columns(s)) && AllSettled(s, Rows(s))
  {
    var cs := Columns(s);
    forall i | 0 <= i < |cs|
      ensures GroupSettled(s, cs[i])
    {
      assert GroupComplete(s, ColumnGroup(s, i + 1));
    }
    var rs := Rows(s);
    forall i | 0 <= i < |rs|
      ensures GroupSettled(s, rs[i])
    {
      if i == 0 {
        assert forall q :: q in rs[i] ==> InBounds(s, q) && At(s, q).Constraint?;
      } else {
        assert GroupComplete(s, RowGroup(s, i));
      }
    }
  }

  lemma SweepSound(b: Board, s: Board)
    requires PuzzleSolution(s) && WellFormed(b) && Refines(b, s)
    ensures Refines(Sweep(b).board, s)
  {
    SolutionSettled(s);
    GroupListsShape(b, s);
    SweepGroupsSound(b, Columns(b), s);
    var cols := SweepGroups(b, Columns(b)).board;
    RefinesWellFormed(cols, s);
    GroupListsShape(cols, s);
    SweepGroupsSound(cols, Rows(cols), s);
  }

  lemma {:induction false} PropagateSound(b: Board, s: Board)
    requires PuzzleSolution(s) && WellFormed(b) && Refines(b, s)
    ensures Refines(Propagate(b), s)
    decreases |EmptySet(b)|
  {
    SweepSound(b, s);
    var next := Sweep(b);
    if next.changed {
      RefinesShrinks(b, next.board);
      RefinesWellFormed(next.board, s);
      PropagateSound(next.board, s);
    }
  }

  /** The whole propagation engine agrees with every solution the board can
      still reach. */
  lemma TryLogicSolveSound(b: Board, s: Board)
    requires PuzzleSolution(s) && Refines(b, s)
    ensures WellFormed(b)
    ensures Refines(TryLogicSolve(b).board, s)
  {
    RefinesWellFormed(b, s);
    PreprocessSound(b, s);
    var pre := Preprocess(b);
    RefinesWellFormed(pre, s);
    PropagateSound(pre, s);
  }
}

=== FILE: suggest.dfy ===
/** The hint: solve the puzzle from scratch and point at the first cell, in
    reading order, where the player's board disagrees with the answer. In
    fish-first mode a missing clownfish is pointed at before anything else. */
module Suggest {
  import opened Grid
  import opened Groups
  import opened Search

  /** The suggester's mode; the source's "fishfirst" string is `FishFirst` and
      any other value behaves as `InOrder`. */
  datatype Mode = InOrder | FishFirst

  /** Cells are compared by kind only: two constraint cells match whatever
      their numbers. */
  predicate SameKind(x: Cell, y: Cell) {
    if x.Constraint? then y.Constraint? else x == y
  }

  /** The board disagrees with the answer at `p`; when `fishOnly`, the answer
      also holds a clownfish there. */
  predicate Wrong(board: Board, sol: Board, p: Pos, fishOnly: bool)
    requires SameShape(board, sol) && InBounds(sol, p)
  {
    (fishOnly ==> At(sol, p) == Clownfish) && !SameKind(At(sol, p), At(board, p))
  }

  /** `p` is the first wrong puzzle cell in reading order. */
  ghost predicate FirstWrongAt(board: Board, sol: Board, p: Pos, fishOnly: bool)
    requires SameShape(board, sol)
  {
    IsPuzzle(sol, p) && Wrong(board, sol, p, fishOnly) &&
    forall q :: IsPuzzle(sol, q) && Before(q, p) ==> !Wrong(board, sol, q, fishOnly)
  }

  ghost predicate AnyWrong(board: Board, sol: Board, fishOnly: bool)
    requires SameShape(board, sol)
  {
    exists q :: IsPuzzle(sol, q) && Wrong(board, sol, q, fishOnly)
  }

  /** The cell the hint names for answer `sol`: the first missing clownfish in
      fish-first mode, else the first wrong cell, else the top-left puzzle cell. */
  ghost predicate SuggestionFor(mode: Mode, board: Board, sol: Board, p: Pos)
    requires SameShape(board, sol)
  {
    if mode == FishFirst && AnyWrong(board, sol, true) then FirstWrongAt(board, sol, p, true)
    else if AnyWrong(board, sol, false) then FirstWrongAt(board, sol, p, false)
    else p == Pos(1, 1)
  }

  /** The scan over rows from 1 and, within each row, columns from 1. */
  method FirstWrong(board: Board, sol: Board, fishOnly: bool) returns (r: Option<Pos>)
    requires Rect(sol) && SameShape(board, sol)
    ensures r.None? <==> !AnyWrong(board, sol, fishOnly)
    ensures r.Some? ==> FirstWrongAt(board, sol, r.value, fishOnly)
  {
    var row := 1;
    while row < |sol|
      invariant 1 <= row <= |sol|
      invariant forall q :: IsPuzzle(sol, q) && q.r < row ==> !Wrong(board, sol, q, fishOnly)
    {
      var col := 1;
      while col < |sol[row]|
        invariant 1 <= col <= |sol[row]|
        invariant forall q :: IsPuzzle(sol, q) && q.r < row ==> !Wrong(board, sol, q, fishOnly)
        invariant forall q :: IsPuzzle(sol, q) && q.r == row && q.c < col ==> !Wrong(board, sol, q, fishOnly)
      {
        if Wrong(board, sol, Pos(row, col), fishOnly) {
          return Some(Pos(row, col));
        }
        col := col + 1;
      }
      row := row + 1;
    }
    return None;
  }

  /** The hint for `board`. `None` stands for the source's failure when the
      puzzle has no completion: it then reads the length of a null answer. */
  method NextSuggestion(mode: Mode, board: Board) returns (r: Option<Pos>)
    requires WellFormed(board)
    ensures r.None? <==> Solve(board, true).None?
    ensures r.Some? ==> SuggestionFor(mode, board, Solve(board, true).value, r.value)
  {
    var answer := Solve(board, true);
    if answer.None? {
      return None;
    }
    var sol := answer.value;
    if mode == FishFirst {
      var fish := FirstWrong(board, sol, true);
      if fish.Some? {
        return fish;
      }
    }
    var wrong := FirstWrong(board, sol, false);
    if wrong.Some? {
      return wrong;
    }
    return Some(Pos(1, 1));
  }

  /** At most one cell is the first wrong one. */
  lemma FirstWrongUnique(board: Board, sol: Board, p: Pos, q: Pos, fishOnly: bool)
    requires SameShape(board, sol)
    requires FirstWrongAt(board, sol, p, fishOnly) && FirstWrongAt(board, sol, q, fishOnly)
    ensures p == q
  {
  }

  /** A wrong cell is one the player may change: the answer keeps every coral
      and constraint cell of the board. */
  lemma WrongIsPlayable(board: Board, sol: Board, p: Pos, fishOnly: bool)
    requires WellFormed(board) && Completes(board, sol) && IsPuzzle(sol, p)
    requires Wrong(board, sol, p, fishOnly)
    ensures InBounds(board, p) && !IsFixed(At(board, p))
    ensures At(sol, p) == Water || At(sol, p) == Clownfish
  {
    assert InBounds(board, p);
    SolvedCell(sol, p);
  }

  /** In fish-first mode, while the answer has a clownfish the board lacks, the
      hint is such a cell. */
  lemma FishFirstPointsAtFish(board: Board, sol: Board, p: Pos)
    requires SameShape(board, sol) && AnyWrong(board, sol, true)
    requires SuggestionFor(FishFirst, board, sol, p)
    ensures IsPuzzle(sol, p) && At(sol, p) == Clownfish && At(board, p) != Clownfish
  {
  }

  /** A clownfish the board lacks is also a wrong cell, so fish-first mode
      falls back to the top-left cell only when the board matches the answer. */
  lemma FishWrongIsWrong(board: Board, sol: Board)
    requires SameShape(board, sol)
    ensures AnyWrong(board, sol, true) ==> AnyWrong(board, sol, false)
    ensures !AnyWrong(board, sol, false) ==> forall p :: SuggestionFor(FishFirst, board, sol, p) <==> p == Pos(1, 1)
  {
  }

  /** A board that matches the answer except for one missing clownfish gets
      that cell as its hint, in either mode. */
  lemma OneMissingFish(mode: Mode, board: Board, sol: Board, p: Pos)
    requires SameShape(board, sol) && IsPuzzle(sol, p)
    requires At(sol, p) == Clownfish && At(board, p) == Empty
    requires forall q :: InBounds(sol, q) && q != p ==> At(board, q) == At(sol, q)
    ensures SuggestionFor(mode, board, sol, p)
  {
    assert Wrong(board, sol, p, true) && Wrong(board, sol, p, false);
  }
}
